=== FILE: README.md ===
# Employee management server: session layer and record services

This project is a Dafny model of the core of a Spring Boot employee-management
server. It covers the following parts:

- **The cookie-borne JWT session layer.**
  - The token codec (`JwtUtil`).
  - Login, registration, explicit refresh and logout (`AuthService`).
  - The per-request gate (`JwtAuthenticationFilter`).
- **The two record services** (`EmployeeServiceImpl`, `UserServiceImpl`), over
  the `employee` and `users` tables.
- **Validation and filtering.**
  - The bean-validation constraints on the user request bodies.
  - The two filter specifications.
  - The `@PreAuthorize` guard table and the paging defaults of the two controllers.
- **The two start-up seeders** (administrator account, generated employees).

How the model is built:

- **Everything is a pure function.** The tables are finite maps from the generated id to the
  row, plus the identity counter. An operation returns its outcome (a value or
  the exception it throws) together with the store afterwards.
- **Tokens are values.** A token is the datatype of its claims `sub`, `role`,
  `iat` and `exp` (RFC 7519 sections 4.1.2, 4.1.6 and 4.1.4). NumericDate has
  one-second resolution (RFC 7519 section 2). A flag records whether the
  token was signed with the server's key.
- **Time is explicit.** Every operation that reads the clock takes the time in milliseconds as a parameter.
- **The gate is a function** from the request's cookies, the store and the clock to a
  decision: `Proceed` (with an identity or none, and the cookies to set) or
  `Reject` (a 401 body, and the cookies to set).
  - The gate returns no store, so it never writes users and never rotates a refresh token.
- **Faker is an input.** The generated names and the random retry numbers of the employee seeder are passed in.

Modules, one per file:

- `Outcomes`: the shared result types.
- `Text`: character classes, Java's whitespace and decimal rendering.
- `JwtUtil`, `Users`, `AuthService`, `JwtAuthenticationFilter`.
- `Session`: properties across login, gate and logout.
- `Employees`, `UserRequests`, `UserService`.
- `SqlLike`: SQL `LIKE`.
- `Filters`, `Controllers`.
- `AdminSeeder`, `AdminSession`, `EmployeeSeeder`.

Two behaviours of the code are modelled as written:

- Login reports "User not found" and "Invalid credentials" as two distinct errors.
- On the gate's refresh path, a refresh token that fails validation or differs from the stored one lets the request through anonymous rather than rejecting it.

## Model

Source paths below are relative to the repository root. Some definitions that transcribe the code directly have no row of their own, because the lemmas listed below specify them:

- The token generators `JwtUtil.Generate`, `GenerateAccessToken` and `GenerateRefreshToken` are covered by `GeneratedClaims` and the two lifetime lemmas.
- The cookie scan `ScanFrom`/`ScanCookies` is covered by `ScanKeepsLast`, which relates it to `LastNamed`.
- The filter's cookie builders `ClearAuthCookies` and `NewAccessCookie` are covered by the `DoFilterInternal` and `TryRefresh` rows and the filter lemmas.
- The guard table `Controllers.GuardOf`/`CorrectedGuardOf` and the interceptor `Controllers.Authorize` are covered by `GuardTableMeaning` and `AuthorizeMeaning`.
- The SQL `LIKE` matcher `SqlLike.Like` is covered by `AroundIsContains` and `UnderscoreMatchesAnyNonEmpty`.
- The name sanitizer `EmployeeSeeder.Sanitize` is covered by the `KeepLowerLetters*` and `Sanitize*` lemmas.

| member | source | states |
|---|---|---|
| JwtUtil.Parse | server/src/main/java/com/project/employee/security/JwtUtil.java:51-58 | claims come back exactly for a token signed with the key and not past `exp`; a well-signed late token is "expired"; a blank string (empty, or whitespace only in the sense of `Character.isWhitespace`) is refused before parsing; any other unparsable string, or a foreign signature, is a JWT failure |
| JwtUtil.ValidateJwtToken | server/src/main/java/com/project/employee/security/JwtUtil.java:60-74 | true exactly for a well-signed unexpired token; false, without throwing, for expired, badly signed or malformed non-blank ones; exactly the blank strings (empty or whitespace only) throw, with IllegalArgumentException, since that is not a JwtException |
| JwtUtil.GetUsernameFromJwt | server/src/main/java/com/project/employee/security/JwtUtil.java:51-58 | returns the subject exactly when the token is acceptable; throws ExpiredJwtException exactly for a well-signed expired token |
| JwtUtil.GetRoleFromJwt | server/src/main/java/com/project/employee/security/JwtUtil.java:88-95 | returns the role claim exactly when the token is acceptable |
| JwtUtil.GetAuthentication | server/src/main/java/com/project/employee/security/JwtUtil.java:76-86 | principal is the subject with the single authority equal to the role claim verbatim; null for an expired token; a role without text (empty, or only `Character.isWhitespace` characters, Unicode separators included) throws; a bad token throws |
| JwtUtil.EmSpaceRoleHasNoAuthority | server/src/main/java/com/project/employee/security/JwtUtil.java:76-86 | a role of one em space survives `trim`, so it is not blank, yet it has no text, and building the authority from it throws |
| JwtUtil.GeneratedClaims | server/src/main/java/com/project/employee/security/JwtUtil.java:31-49 | both kinds of token carry the given subject and role, the key, and the issue second |
| JwtUtil.AccessTokenLifetime | server/src/main/java/com/project/employee/security/JwtUtil.java:20-39 | an access token validates exactly until 900000 ms after its issue second |
| JwtUtil.RefreshTokenLifetime | server/src/main/java/com/project/employee/security/JwtUtil.java:21-49 | a refresh token validates exactly until 604800000 ms after its issue second |
| JwtUtil.ClaimsRoundTrip | server/src/main/java/com/project/employee/security/JwtUtil.java:31-58 | reading a generated token back while it lives gives the username and the role it was generated with |
| JwtUtil.SameSecondSameToken | server/src/main/java/com/project/employee/security/JwtUtil.java:31-49 | two tokens with the same claims are equal if and only if they were issued in the same second |
| JwtUtil.KindsIndistinguishable | server/src/main/java/com/project/employee/security/JwtUtil.java:31-49 | access and refresh tokens from one call differ only in `exp`; while the access token lives both validate and authenticate identically |
| Users.FindByUsername | server/src/main/java/com/project/employee/repository/UserRepository.java:12 | empty when no row has the name, the row when exactly one has it, IncorrectResultSize when several do |
| Users.FindByRefreshToken | server/src/main/java/com/project/employee/repository/UserRepository.java:14 | empty when no row holds the token (null never matches), the holder when exactly one does, IncorrectResultSize when several do |
| Users.Persist | server/src/main/java/com/project/employee/model/User.java:21-39 | a new row gets the next generated id and `createdAt` = now; other rows are untouched; the store stays well-formed and grows by one |
| AuthService.IssueTokens | server/src/main/java/com/project/employee/service/AuthService.java:29-38 | both tokens read back as the user's name and role, expire 15 minutes and 7 days after the issue second; only that user's refresh token changes, to the returned one |
| AuthService.Login | server/src/main/java/com/project/employee/service/AuthService.java:22-38 | "User not found" for an unknown name, "Invalid credentials" for a wrong password, store unchanged on failure; success exactly for the sole user with a matching password, whose stored refresh token becomes the returned one and nothing else changes |
| AuthService.Register | server/src/main/java/com/project/employee/service/AuthService.java:41-52 | fails exactly when the name is present, store unchanged; otherwise adds one row with the encoded password, role "USER", no name and no refresh token, and answers "User registered successfully" |
| AuthService.Refresh | server/src/main/java/com/project/employee/service/AuthService.java:54-72 | as written: unknown token refused; a held token that validates refused; success exactly for a held token that fails validation (and is not empty), which is then replaced by the new refresh token |
| AuthService.RefreshIntended | server/src/main/java/com/project/employee/service/AuthService.java:54-72 | corrected: success exactly for a held token that still validates; the stored token is replaced by the returned one, and the new access token carries the holder's name and role |
| AuthService.Logout | server/src/main/java/com/project/employee/service/AuthService.java:74-80 | succeeds exactly when one row holds the token, and clears that row's refresh token and nothing else; an unknown token fails with "Invalid refresh token" |
| AuthService.ReplacedTokenHasNoHolder | server/src/main/java/com/project/employee/model/User.java:30-31 | a row holds a single refresh-token value, so after it is overwritten the old value has no holder |
| AuthService.FreshLoginTokenRefusedByRefresh | server/src/main/java/com/project/employee/service/AuthService.java:58-60 | as written, the refresh token a login just returned is refused by refresh for its whole validity, and the store is unchanged |
| AuthService.RotationRetiresOldToken | server/src/main/java/com/project/employee/service/AuthService.java:62-66 | with the corrected check, once rotation yields a different value the old value is refused from then on |
| AuthService.RotationWithinSecondRepeatsToken | server/src/main/java/com/project/employee/service/AuthService.java:62-66 | for any user holding a refresh token, rotating it within the second it was issued in returns the very same token and leaves the rows as they were; the "old" token is still accepted |
| AuthService.LogoutTwiceFails | server/src/main/java/com/project/employee/service/AuthService.java:74-80 | a second logout with the same token fails with "Invalid refresh token" and changes nothing |
| AuthService.RegisterTwiceFails | server/src/main/java/com/project/employee/service/AuthService.java:41-44 | registering a name a second time fails with "Username already exists" and changes nothing |
| JwtAuthenticationFilter.LastNamed | server/src/main/java/com/project/employee/security/JwtAuthenticationFilter.java:46-54 | absent exactly when no cookie has the name; otherwise the value of a cookie with that name after which none has it |
| JwtAuthenticationFilter.ScanFromKeepsLast | server/src/main/java/com/project/employee/security/JwtAuthenticationFilter.java:46-54 | each slot of the scan loop ends holding the last cookie of its name, or its earlier value if there is none |
| JwtAuthenticationFilter.ScanKeepsLast | server/src/main/java/com/project/employee/security/JwtAuthenticationFilter.java:43-57 | the scan keeps the last `accessToken` and the last `refreshToken` cookie and ignores other names; no cookies gives two empty slots |
| JwtAuthenticationFilter.SetAuthentication | server/src/main/java/com/project/employee/security/JwtAuthenticationFilter.java:134-151 | an identity is set exactly for an acceptable token whose role has text, as subject with the single role authority; every failure leaves the request anonymous |
| JwtAuthenticationFilter.TryRefresh | server/src/main/java/com/project/employee/security/JwtAuthenticationFilter.java:78-122 | any failure inside the refresh block is 401 "Authentication failed" with both cookies cleared; falling through sets no identity; a new access cookie is written only for an acceptable refresh token that is the one stored for the sole user of its subject, as a fresh access token with that user's stored role, and the identity is the one that token carries |
| JwtAuthenticationFilter.DoFilterInternal | server/src/main/java/com/project/employee/security/JwtAuthenticationFilter.java:35-132 | the gate never writes a refresh-token cookie other than a deleting one; every rejection is 401 "Unauthorized" / "Authentication failed", clearing both cookies or none; an identity set without a new cookie is the one carried by the last `accessToken` cookie, which is acceptable; a new cookie is written only when that access cookie is unusable and the last `refreshToken` cookie is acceptable and is the token stored for the sole user of its subject, and then it is a fresh access token with that user's stored role and the identity is the one that token carries |
| JwtAuthenticationFilter.NoAccessTokenIsAnonymous | server/src/main/java/com/project/employee/security/JwtAuthenticationFilter.java:59-63 | without an access cookie the request proceeds anonymous, no cookie is written, and the outcome does not depend on the store |
| JwtAuthenticationFilter.ValidAccessTokenAuthenticates | server/src/main/java/com/project/employee/security/JwtAuthenticationFilter.java:66-73 | a valid access cookie authenticates as its subject with its role claim; the refresh cookie and the store play no part |
| JwtAuthenticationFilter.InvalidAccessWithoutRefreshIsAnonymous | server/src/main/java/com/project/employee/security/JwtAuthenticationFilter.java:78-124 | an unusable access cookie without a refresh cookie proceeds anonymous with no error and no cookies |
| JwtAuthenticationFilter.EmptyAccessTokenRejectsWithoutClearing | server/src/main/java/com/project/employee/security/JwtAuthenticationFilter.java:128-131 | a blank access cookie (empty or whitespace only) is answered 401 "Authentication failed" and no cookie is cleared |
| JwtAuthenticationFilter.SilentUpgrade | server/src/main/java/com/project/employee/security/JwtAuthenticationFilter.java:82-109 | unusable access token plus a valid refresh token equal to the stored one of its sole user: a new access token with the stored role is set (HttpOnly, Secure, path "/", max-age 1800) and authenticates the request |
| JwtAuthenticationFilter.BadRefreshFallsThroughToAnonymous | server/src/main/java/com/project/employee/security/JwtAuthenticationFilter.java:110-124 | a refresh token that fails validation, or differs from the stored one, lets the request through anonymous with no cookies |
| JwtAuthenticationFilter.BlankRefreshTokenRejectsAndClears | server/src/main/java/com/project/employee/security/JwtAuthenticationFilter.java:78-121 | an unusable, non-blank access cookie with a blank refresh cookie: the validation throws inside the refresh block, so both cookies are cleared and the answer is 401 "Authentication failed" |
| JwtAuthenticationFilter.UnknownRefreshSubjectRejects | server/src/main/java/com/project/employee/security/JwtAuthenticationFilter.java:88-121 | a valid refresh token whose subject has no single user row clears both cookies (max-age 0, path "/") and answers 401 "Authentication failed" |
| JwtAuthenticationFilter.RefreshTokenAcceptedInAccessSlot | server/src/main/java/com/project/employee/security/JwtAuthenticationFilter.java:66-73 | a refresh token sent as the access cookie authenticates after the access token of the same login has expired |
| Session.LoginThenAuthenticated | server/src/main/java/com/project/employee/security/JwtAuthenticationFilter.java:66-73 | the cookies a successful login returns authenticate as that user with its role until the access token expires |
| Session.LoginThenSilentUpgrade | server/src/main/java/com/project/employee/security/JwtAuthenticationFilter.java:82-109 | after the access token expires and before the refresh token does, the same cookies authenticate through a newly issued access cookie |
| Session.LogoutThenAnonymous | server/src/main/java/com/project/employee/security/JwtAuthenticationFilter.java:91-112 | after logout, an expired access token is no longer upgraded and the request proceeds anonymous |
| Session.RotatedTokenNoLongerUpgrades | server/src/main/java/com/project/employee/security/JwtAuthenticationFilter.java:91-112 | after a corrected rotation to a new value, the replaced refresh token no longer upgrades and the request proceeds anonymous |
| AdminSeeder.AdminUser | server/src/main/java/com/project/employee/config/AdminSeeder.java:18-22 | the seeded row has username "admin", name "Administrator", role "ROLE_ADMIN", a password matching "admin123" and no refresh token |
| AdminSeeder.SeedAdmin | server/src/main/java/com/project/employee/config/AdminSeeder.java:16-24 | an existing "admin" row leaves the store as it was; without one the administrator is added under the next id; at most one row is added; several "admin" rows make the lookup throw |
| AdminSeeder.SeedTwiceAddsNothing | server/src/main/java/com/project/employee/config/AdminSeeder.java:16-17 | a second run after a successful one leaves the store unchanged |
| AdminSeeder.SeededAdminCanLogIn | server/src/main/java/com/project/employee/config/AdminSeeder.java:18-23 | after seeding, "admin" is the sole user of that name, "admin123" matches its password, and its role is "ROLE_ADMIN" |
| AdminSession.SeededAdminSession | server/src/main/java/com/project/employee/controller/UserController.java:65-66 | the seeded administrator logs in and authenticates with authority "ROLE_ADMIN", may create users, is refused the user list as written, and is allowed it with the corrected guard |
| Employees.CreateEmployee | server/src/main/java/com/project/employee/service/impl/EmployeeServiceImpl.java:30-46 | fails with "Email already exists", store unchanged, exactly when the email is held; otherwise stores the request's seven fields unchanged under the next id and keeps emails unique |
| Employees.FirstTaken | server/src/main/java/com/project/employee/service/impl/EmployeeServiceImpl.java:50-54 | the first request, in order, whose email the store already holds; none exactly when no email is held |
| Employees.InsertAll | server/src/main/java/com/project/employee/service/impl/EmployeeServiceImpl.java:68-70 | the i-th request is saved unchanged as row `nextId + i`; earlier rows are untouched |
| Employees.InsertAllKeepsValid | server/src/main/java/com/project/employee/model/Employee.java:25-26 | a batch of fresh, pairwise distinct emails keeps emails unique across the table |
| Employees.FirstRepeat | server/src/main/java/com/project/employee/service/impl/EmployeeServiceImpl.java:68 | the position of the first request whose email repeats an earlier one in the batch, which is the insert the unique constraint refuses; equal to the batch size exactly when the emails are pairwise distinct |
| Employees.CreateEmployees | server/src/main/java/com/project/employee/service/impl/EmployeeServiceImpl.java:48-71 | the first already-held email aborts with "Email already exists: <email>" before any save, leaving the store unchanged; success exactly for fresh, pairwise distinct emails; then the i-th request is returned and stored unchanged as row nextId+i, rows already present are untouched and the id counter advances by the batch size; a batch repeating one of its own emails is refused by the unique constraint, its rows are rolled back, and the identity values drawn by the inserts up to and including the refused one stay spent |
| Employees.FailedBatchSpendsIds | server/src/main/java/com/project/employee/service/impl/EmployeeServiceImpl.java:48-71 | a batch of one fresh email given twice is refused, and the next employee created gets an id two past the one it would have had |
| Employees.Patch | server/src/main/java/com/project/employee/service/impl/EmployeeServiceImpl.java:83-103 | each non-null request field overwrites, each null one keeps the old value, the id never changes |
| Employees.UpdateEmployee | server/src/main/java/com/project/employee/service/impl/EmployeeServiceImpl.java:73-106 | unknown id gives "Employee not found"; an email held by another row gives "Email already exists"; the row's own email is allowed; success writes the patched row and nothing else |
| Employees.UpdateKeepsValid | server/src/main/java/com/project/employee/service/impl/EmployeeServiceImpl.java:78-81 | every update keeps emails unique and rows under their ids |
| Employees.DeleteEmployee | server/src/main/java/com/project/employee/service/impl/EmployeeServiceImpl.java:108-114 | fails with "Employee not found" exactly for an unknown id; otherwise removes exactly that row |
| Employees.DeleteEmployees | server/src/main/java/com/project/employee/service/impl/EmployeeServiceImpl.java:116-119 | removes exactly the listed ids that exist; unknown ids are skipped; other rows are unchanged |
| Employees.GetEmployeeById | server/src/main/java/com/project/employee/service/impl/EmployeeServiceImpl.java:126-131 | returns the stored row exactly when the id exists, otherwise "Employee not found" |
| Employees.CreateThenGet | server/src/main/java/com/project/employee/service/impl/EmployeeServiceImpl.java:30-46 | a created employee reads back unchanged by its generated id |
| Employees.DeleteThenGone | server/src/main/java/com/project/employee/service/impl/EmployeeServiceImpl.java:108-114 | after a delete the row is unreadable and a second delete fails |
| UserRequests.MatchPasswordPattern | server/src/main/java/com/project/employee/dto/CreateUserRequest.java:16-17 | a single pass over the password decides the pattern: true exactly when it has at least 8 characters, all ASCII letters or digits, at least one of each |
| UserRequests.CreateUserViolations | server/src/main/java/com/project/employee/dto/CreateUserRequest.java:9-21 | each "required" message is reported exactly when its field is null or blank; the pattern message exactly when a present password breaks the rule; no message exactly when all four are present, not blank, and the password follows the rule |
| UserRequests.BulkUpdateViolations | server/src/main/java/com/project/employee/dto/BulkUpdateUserRequest.java:8-16 | the only possible message is the password rule; none exactly when the password is null or follows the rule |
| UserRequests.ValidateCreateUser | server/src/main/java/com/project/employee/controller/UserController.java:26-30 | a create body reaches the handler exactly when it has no violation, and then username, password and role are present; otherwise the call fails with every violated message |
| UserRequests.LettersOnlyRefused | server/src/main/java/com/project/employee/dto/CreateUserRequest.java:16 | a password of letters only is refused at any length |
| UserRequests.PasswordExamples | server/src/main/java/com/project/employee/dto/CreateUserRequest.java:16-17 | "abc12345" passes; a 7-character, a space-containing and an all-digit password fail |
| UserRequests.EmptyPasswordTwoMessages | server/src/main/java/com/project/employee/dto/CreateUserRequest.java:15-18 | an empty password breaks both the "required" and the pattern constraint |
| UserRequests.NullPasswordAccepted | server/src/main/java/com/project/employee/dto/BulkUpdateUserRequest.java:12-14 | a bulk element without a password always passes validation |
| UserService.CreateUser | server/src/main/java/com/project/employee/service/impl/UserServiceImpl.java:30-40 | name, username and role stored verbatim, the password encoded, no refresh token, under the next id with `createdAt` = now; no uniqueness check |
| UserService.DuplicateUsernameAccepted | server/src/main/java/com/project/employee/service/impl/UserServiceImpl.java:30-40 | two creates with one username both succeed, after which the username lookup throws |
| UserService.CreateUsers | server/src/main/java/com/project/employee/service/impl/UserServiceImpl.java:42-59 | each request is saved, in order, as row `nextId + i` with the encoded password; earlier rows are untouched; the store stays well-formed |
| UserService.PatchUser | server/src/main/java/com/project/employee/service/impl/UserServiceImpl.java:66-75 | non-null name, username and role overwrite, null ones keep; id, password, refresh token and creation time never change |
| UserService.UpdateUser | server/src/main/java/com/project/employee/service/impl/UserServiceImpl.java:61-78 | fails with "User not found with id: <id>" exactly for an unknown id, store unchanged; otherwise writes the patched row and nothing else |
| UserService.PatchFromBulk | server/src/main/java/com/project/employee/service/impl/UserServiceImpl.java:87-98 | the single-update patch plus a present password re-encoded; id, refresh token and creation time kept |
| UserService.UpdateUsers | server/src/main/java/com/project/employee/service/impl/UserServiceImpl.java:80-106 | succeeds exactly when every element names an existing row; a failure rolls every write back; success keeps the set of ids and the counter, and each element's reply is its row as the whole batch left it, since all replies are mapped after the last write from the one managed entity per id |
| UserService.ApplyBulk | server/src/main/java/com/project/employee/service/impl/UserServiceImpl.java:82-101 | the writes go through exactly when every element names an existing row (a null id is refused by `findById`); they keep the set of ids and the counter |
| UserService.UpdateUsersFirstFailure | server/src/main/java/com/project/employee/service/impl/UserServiceImpl.java:84-85 | a failed bulk update reports the failure of the first element that names no row |
| UserService.UpdateUsersKeepsSessions | server/src/main/java/com/project/employee/service/impl/UserServiceImpl.java:83-101 | a successful bulk update keeps every id, refresh token and creation time, and leaves rows no element names unchanged |
| UserService.UpdateUsersInOrder | server/src/main/java/com/project/employee/service/impl/UserServiceImpl.java:82-106 | two elements for one user are both applied, in list order, and both replies show the row after the second |
| UserService.UpdateUsersDistinctIds | server/src/main/java/com/project/employee/service/impl/UserServiceImpl.java:80-106 | with pairwise distinct ids, every named row ends as its own element applied to the row as it was, and the reply lists exactly those rows in request order |
| UserService.DeleteUser | server/src/main/java/com/project/employee/service/impl/UserServiceImpl.java:108-114 | fails with "User not found with id: <id>" exactly for an unknown id; otherwise removes exactly that row |
| UserService.DeleteUsers | server/src/main/java/com/project/employee/service/impl/UserServiceImpl.java:116-119 | removes exactly the listed ids that exist; unknown ids are skipped; other rows are unchanged |
| UserService.UpdateKeepsSession | server/src/main/java/com/project/employee/service/impl/UserServiceImpl.java:61-78 | an administrator's single update leaves the user's refresh token, and so the session, in place |
| UserService.DeleteEndsSession | server/src/main/java/com/project/employee/service/impl/UserServiceImpl.java:108-114 | after a user is deleted, the user's refresh token has no holder |
| SqlLike.AroundIsContains | server/src/main/java/com/project/employee/spec/EmployeeSpecification.java:22-24 | for a query without `%` or `_`, the `%q%` pattern matches exactly the values that contain `q` |
| SqlLike.UnderscoreMatchesAnyNonEmpty | server/src/main/java/com/project/employee/spec/UserSpecification.java:19-21 | the query is not escaped, so `_` matches every non-empty value |
| Filters.StringCriteria | server/src/main/java/com/project/employee/spec/EmployeeSpecification.java:15-34 | no string criterion is added exactly when name, email, position and phone are all null or blank |
| Filters.BoundCriteria | server/src/main/java/com/project/employee/spec/EmployeeSpecification.java:36-52 | no bound is added exactly when all four bounds are null |
| Filters.EmployeeCriteria | server/src/main/java/com/project/employee/spec/EmployeeSpecification.java:11-56 | at most eight predicates; none exactly when every string criterion is null or blank and every bound is null |
| Filters.UserCriteria | server/src/main/java/com/project/employee/spec/UserSpecification.java:10-30 | no predicate exactly when name, username and role are all null or blank |
| Filters.EmptyEmployeeFilterSelectsAll | server/src/main/java/com/project/employee/spec/EmployeeSpecification.java:54 | with no criterion every employee is selected |
| Filters.EmptyUserFilterSelectsAll | server/src/main/java/com/project/employee/spec/UserSpecification.java:28 | with no criterion every user is selected |
| Filters.BlankIgnored | server/src/main/java/com/project/employee/spec/EmployeeSpecification.java:15-34 | blank string criteria build the same predicate list as null ones |
| Filters.EmployeeCriteriaMeaning | server/src/main/java/com/project/employee/spec/EmployeeSpecification.java:11-56 | for wildcard-free queries, an employee is selected exactly when the name is in first or last name, email and position contain their queries ignoring case, phone contains its query with case, bounds hold inclusively, and no null column is tested |
| Filters.StringCriteriaMeaning | server/src/main/java/com/project/employee/spec/EmployeeSpecification.java:15-34 | the four string criteria, field by field: case-insensitive containment for name (first or last), email and position, case-sensitive for phone, null columns never match |
| Filters.BoundCriteriaMeaning | server/src/main/java/com/project/employee/spec/EmployeeSpecification.java:36-52 | salary and start-date bounds are inclusive at both ends and a null salary fails any salary bound |
| Filters.UserCriteriaMeaning | server/src/main/java/com/project/employee/spec/UserSpecification.java:10-30 | for wildcard-free queries, a user is selected exactly when name and username contain their queries ignoring case (a null name never matches) and the role is equal, case and all |
| Controllers.AuthorizeMeaning | server/src/main/java/com/project/employee/controller/EmployeeController.java:28-77 | a call passes exactly when the caller's authorities are admitted for its route (anonymous holds "ROLE_ANONYMOUS"): anyone for the single-employee read, "ROLE_ADMIN" or "ROLE_USER" for the other employee routes, the bare "ADMIN" for the user list, "ROLE_ADMIN" for the other user routes; otherwise access is denied |
| Controllers.GuardTableMeaning | server/src/main/java/com/project/employee/controller/UserController.java:26-74 | the annotated guards, with the prefix `hasRole`/`hasAnyRole` add, admit exactly that rule; guarding the user list by role instead makes it ask for "ROLE_ADMIN" |
| Controllers.RegisteredRoleLocksOut | server/src/main/java/com/project/employee/controller/EmployeeController.java:28-77 | the stored role "USER" lacks the prefix the guards add, so it passes only the unguarded employee read |
| Controllers.AdminRoleAsWritten | server/src/main/java/com/project/employee/controller/UserController.java:26-74 | "ROLE_ADMIN" passes every route except the user list, whose exact-authority guard wants "ADMIN" |
| Controllers.AdminRoleCorrected | server/src/main/java/com/project/employee/controller/UserController.java:65-66 | with the list route guarded by role like its neighbours, "ROLE_ADMIN" passes every route |
| Controllers.AnonymousOnlyReadsOne | server/src/main/java/com/project/employee/controller/EmployeeController.java:61-64 | an anonymous request passes exactly the unguarded employee read |
| Controllers.RoleClaimDecidesCreate | server/src/main/java/com/project/employee/controller/EmployeeController.java:28-32 | a live token with role claim "USER" is refused employee creation; one with "ROLE_ADMIN" is let through |
| Controllers.Paging | server/src/main/java/com/project/employee/controller/EmployeeController.java:66-74 | missing page and size default to 0 and 10; the page request is built exactly when page >= 0 and size >= 1, otherwise IllegalArgumentException |
| Controllers.DefaultPaging | server/src/main/java/com/project/employee/controller/EmployeeController.java:69-70 | without parameters the first page of ten is requested |
| Controllers.EmployeeFilterFromParams | server/src/main/java/com/project/employee/controller/EmployeeController.java:89-96 | seven parameters copied into the filter unchanged; phone always null |
| Controllers.EndpointNeverFiltersPhone | server/src/main/java/com/project/employee/controller/EmployeeController.java:89-96 | through the endpoint the phone criterion never takes part |
| Controllers.UserFilterFromParams | server/src/main/java/com/project/employee/controller/UserController.java:82-85 | username, name and role copied into the filter unchanged |
| EmployeeSeeder.KeepLowerLetters | server/src/main/java/com/project/employee/config/EmployeeSeeder.java:73-74 | the result holds only the letters a to z and is no longer than the input |
| EmployeeSeeder.KeepLowerLettersFixesClean | server/src/main/java/com/project/employee/config/EmployeeSeeder.java:73-74 | a string made only of a to z passes the filter unchanged |
| EmployeeSeeder.KeepLowerLettersDropsOthers | server/src/main/java/com/project/employee/config/EmployeeSeeder.java:73-74 | a string with no character from a to z filters to the empty string |
| EmployeeSeeder.KeepLowerLettersConcat | server/src/main/java/com/project/employee/config/EmployeeSeeder.java:73-74 | filtering a concatenation concatenates the filtered parts; with the two neighbouring lemmas the result is exactly the a-to-z characters of the input, in order |
| EmployeeSeeder.SanitizeIdempotent | server/src/main/java/com/project/employee/config/EmployeeSeeder.java:73-74 | sanitizing a sanitized name changes nothing |
| EmployeeSeeder.SanitizeExample | server/src/main/java/com/project/employee/config/EmployeeSeeder.java:73-74 | "O'Brien" becomes "obrien": upper case is lowered, other characters dropped |
| EmployeeSeeder.GenerateUniqueEmail | server/src/main/java/com/project/employee/config/EmployeeSeeder.java:72-85 | the address was unused and is recorded; it ends with "@company.com" and starts with first.last+counter; it is the base address whenever that is unused, otherwise the retry address of the first drawn number whose address is unused; when every draw gives a used address there is no result and nothing is recorded |
| EmployeeSeeder.StemDeterminesCounter | server/src/main/java/com/project/employee/config/EmployeeSeeder.java:73-75 | two address stems are equal only for the same counter, whatever the names: the sanitized names hold no digit, so the counter is the run of digits that ends the stem |
| EmployeeSeeder.BaseEmailDeterminesCounter | server/src/main/java/com/project/employee/config/EmployeeSeeder.java:73-75 | two base addresses are equal only for the same counter, whatever the names |
| EmployeeSeeder.NextBaseIsFresh | server/src/main/java/com/project/employee/config/EmployeeSeeder.java:38-42 | after employees 0 to i-1 got their base addresses, the base address of employee i is not among them, so the retry loop is never entered |
| EmployeeSeeder.BuiltInOrderDistinct | server/src/main/java/com/project/employee/config/EmployeeSeeder.java:36-42 | base addresses built in order of position are pairwise distinct and each ends with "@company.com" |
| EmployeeSeeder.Run | server/src/main/java/com/project/employee/config/EmployeeSeeder.java:25-70 | with 10 or more rows nothing is built; otherwise employee i gets exactly its base address first.last+i@company.com, so no retry number is ever drawn; the 1000 addresses are pairwise distinct, end with the domain, and are saved in 10 batches of 100 |
| Text.NatToStringRoundTrip | server/src/main/java/com/project/employee/config/EmployeeSeeder.java:73-75 | the decimal rendering of a counter reads back as that counter |
| Text.NatToStringInjective | server/src/main/java/com/project/employee/config/EmployeeSeeder.java:73-75 | distinct counters render as distinct digit strings |

## Left out

- Servlet I/O, the security context and logging are not modelled. Cookies, the 401 body and the identity put in the security context are fields of the gate's result. `setDetails` and the log lines have no effect on any decision.
- JJWT parsing and HMAC are not modelled. A token string is its decoded claims plus a flag for the signing key. A missing `role` claim (null) cannot be expressed.
- Password hashing is not modelled. `encode` is an injective function and `matches(p, h)` holds iff `h = encode(p)`; BCrypt's salt is left out.
- JPA pagination, `PagedResponse`, the mappers and the DTO copies are left out. The list and filter endpoints are modelled as the page request they build and the predicate they select by.
- Faker is left out. The names and retry numbers are inputs. When the given retry numbers run out, `GenerateUniqueEmail` returns none where the source would keep drawing; `Run` never gets there, because each base address is new.
- EmployeeSeeder.Run: phone, position, salary and start date of the generated rows are not modelled, nor is a clash between a generated address and one of the fewer than 10 existing rows.
- Employees.Employee: the `Double` salary is an integer and is only compared. `LocalDate` is a day number.
- Text.ToLower: lowercasing is ASCII only. Java's full Unicode `toLowerCase` is not modelled, and neither is the database's collation.
- Concurrency is left out. Two refreshes racing on one user cannot be expressed in the sequential model.
- Users.User: the 512-character limit of the refresh-token column is not modelled.
- JwtAuthenticationFilter.DoFilterInternal: the outer `ExpiredJwtException` handler is not reachable, because one clock reading serves the whole request. Exceptions from the rest of the filter chain are not modelled.
- UserService.CreateUser: requires username, password and role to be present, which the `@Valid` body check guarantees. Null fields are not modelled.
- UserService.CreateUsers: requires every element to have username, password and role. Elements of a `@Valid` list are not validated one by one, and a null field is not modelled.
- UserService.CreateUsers: all rows of one batch get the same `createdAt`.
- Employees.CreateEmployees: assumes the refused insert of an in-batch duplicate also draws an identity value, as MySQL, PostgreSQL and H2 do. A database that hands the value back on a failed insert would leave the counter one lower.
- Employees.DeleteEmployees and UserService.DeleteUsers: a null id in the list cannot be expressed.
- The `@Email` format check on the employee update request is not modelled.
- `CreateEmployeeRequest.java` is not part of this model, so the constraints declared on the employee create request are not modelled.
- UserRequests.UpdateUserRequest: its field list is taken from the getters the service calls. `UpdateUserRequest.java` is not part of this model.
- `SecurityConfig.java` is not part of this model, so the URL-level security rules in front of the method guards are not modelled.
- `AuthController`, which sets and reads cookies around the service calls, is left out, as are the service interfaces and the browser client.

## Findings

| source | as written | input that shows it | evidently intended | confidence | as-written member | corrected member |
|---|---|---|---|---|---|---|
| server/src/main/java/com/project/employee/service/AuthService.java:58 | the request is refused when `validateJwtToken` returns true, so only a stored token that fails validation is rotated | log in at time t, then call refresh with the returned refresh token at any time up to t + 7 days: "Invalid refresh token" | refuse a token that fails validation and rotate a valid one, as the error message says | not executed | AuthService.FreshLoginTokenRefusedByRefresh | AuthService.RotationRetiresOldToken |
| server/src/main/java/com/project/employee/controller/UserController.java:66 | the user list is guarded by `hasAuthority('ADMIN')`, an exact match, which the seeded authority "ROLE_ADMIN" never satisfies | the seeded administrator logs in and requests `GET /api/admin/users`: access denied, while every other user route is allowed | `hasRole('ADMIN')` like the other routes of the controller | not executed | Controllers.AdminRoleAsWritten | Controllers.AdminRoleCorrected |

=== FILE: admin_seeder.dfy ===
/**
 * The start-up runner that creates the administrator account when no user
 * named "admin" exists.
 */
module AdminSeeder {
  import opened Outcomes
  import opened JwtUtil
  import opened Users

  const AdminUsername := "admin"
  const AdminName := "Administrator"
  const AdminPassword := "admin123"
  const AdminRole := "ROLE_ADMIN"

  /** The row the seeder persists, before the store assigns id and timestamp. */
  function AdminUser(): (u: User)
    ensures u.username == AdminUsername && u.name == Some(AdminName)
    ensures u.role == AdminRole && Matches(AdminPassword, u.password) && u.refreshToken.None?
  {
    User(0, Some(AdminName), AdminUsername, Encode(AdminPassword), AdminRole, None, 0)
  }

  predicate HasAdmin(s: UserStore) {
    exists id :: id in s.rows && s.rows[id].username == AdminUsername
  }

  /**
   * `seedAdmin`: persists the administrator only when the username lookup
   * comes back empty; an existing "admin" row is left as it is. Several
   * "admin" rows make the lookup itself fail.
   */
  function SeedAdmin(s: UserStore, now: Millis): (r: Reply<(), UserStore>)
    ensures r.outcome.Throws? <==>
      exists a, b :: a in s.rows && b in s.rows && a != b
        && s.rows[a].username == AdminUsername && s.rows[b].username == AdminUsername
    ensures r.outcome.Throws? ==> r.outcome.exception == IncorrectResultSize
    ensures HasAdmin(s) ==> r.state == s
    ensures !HasAdmin(s) ==>
      && r.outcome.Returns?
      && r.state.rows == s.rows[s.nextId := AdminUser().(id := s.nextId, createdAt := now)]
      && r.state.nextId == s.nextId + 1
    ensures Valid(s) ==> Valid(r.state) && |r.state.rows| <= |s.rows| + 1
    ensures r.outcome.Returns? ==> HasAdmin(r.state)
  {
    match FindByUsername(s, AdminUsername)
    case Throws(e) => Reply(Throws(e), s)
    case Returns(Some(_)) => Reply(Returns(()), s)
    case Returns(None) => Reply(Returns(()), Persist(s, AdminUser(), now))
  }

  /** Running the seeder a second time adds and changes nothing. */
  lemma SeedTwiceAddsNothing(s: UserStore, t1: Millis, t2: Millis)
    ensures var once := SeedAdmin(s, t1);
      once.outcome.Returns? ==> SeedAdmin(once.state, t2).state == once.state
  {
  }

  /** On a store without an administrator, the seeded credentials log in. */
  lemma SeededAdminCanLogIn(s: UserStore, t: Millis)
    requires Valid(s) && !HasAdmin(s)
    ensures var s' := SeedAdmin(s, t).state;
      SoleUsername(s', s.nextId, AdminUsername)
      && Matches(AdminPassword, s'.rows[s.nextId].password)
      && s'.rows[s.nextId].role == AdminRole
  {
  }
}

=== FILE: admin_session.dfy ===
/**
 * The administrator's path end to end: the seeded account logs in, its
 * cookies authenticate, and the guard table decides what it may call.
 */
module AdminSession {
  import opened Outcomes
  import opened Text
  import opened JwtUtil
  import opened Users
  import opened AuthService
  import opened JwtAuthenticationFilter
  import opened Session
  import opened AdminSeeder
  import opened Controllers

  /**
   * On a store without an "admin" row, the seeded credentials log in; the
   * cookies authenticate as "admin" with authority "ROLE_ADMIN", which may
   * create users but is refused the user list as the table is written, and
   * allowed it with the corrected table.
   */
  lemma SeededAdminSession(s: UserStore, t: Millis, later: Millis)
    requires Valid(s) && !HasAdmin(s)
    requires t <= later <= t - t % 1000 + AccessTokenExpirationMs
    ensures var s1 := SeedAdmin(s, t).state;
      var l := Login(s1, AdminUsername, AdminPassword, t);
      && l.outcome.Returns?
      && var d := DoFilterInternal(LoginCookies(l.outcome.value), l.state, later);
      && d == Proceed(Some(Identity(AdminUsername, [AdminRole])), [])
      && Authorize(GuardOf, CreateUser, d.identity) == Returns(())
      && Authorize(GuardOf, ListUsers, d.identity) == Throws(AccessDenied)
      && Authorize(CorrectedGuardOf, ListUsers, d.identity) == Returns(())
  {
    var s1 := SeedAdmin(s, t).state;
    SeededAdminCanLogIn(s, t);
    assert HasText(AdminRole) by { assert !IsJavaWhitespace(AdminRole[0]); }
    LoginThenAuthenticated(s1, s.nextId, AdminUsername, AdminPassword, t, later);
    AdminRoleAsWritten(CreateUser);
    AdminRoleAsWritten(ListUsers);
    AdminRoleCorrected(ListUsers);
  }
}

=== FILE: auth_service.dfy ===
/**
 * Login, registration, explicit refresh and logout over the user store.
 * Each operation returns its outcome together with the store afterwards; a
 * thrown exception leaves the store as it was.
 */
module AuthService {
  import opened Outcomes
  import opened JwtUtil
  import opened Users

  datatype Tokens = Tokens(accessToken: Token, refreshToken: Token)

  const UserNotFound := "User not found"
  const InvalidCredentials := "Invalid credentials"
  const UsernameExists := "Username already exists"
  const Registered := "User registered successfully"
  const InvalidRefreshToken := "Invalid refresh token"
  const DefaultRole := "USER"

  /** The token pair for a principal, and the store with the pair's refresh token recorded. */
  function IssueTokens(s: UserStore, id: int, now: Millis): (r: Reply<Tokens, UserStore>)
    requires id in s.rows
    ensures r.outcome.Returns?
    ensures var u := s.rows[id]; var t := r.outcome.value;
      && GetUsernameFromJwt(t.accessToken, now) == Returns(u.username)
      && GetRoleFromJwt(t.accessToken, now) == Returns(u.role)
      && GetUsernameFromJwt(t.refreshToken, now) == Returns(u.username)
      && GetRoleFromJwt(t.refreshToken, now) == Returns(u.role)
      && ExpiresAtMillis(t.accessToken) == now - now % 1000 + AccessTokenExpirationMs
      && ExpiresAtMillis(t.refreshToken) == now - now % 1000 + RefreshTokenExpirationMs
    ensures r.state.rows == s.rows[id := s.rows[id].(refreshToken := Some(r.outcome.value.refreshToken))]
    ensures r.state.nextId == s.nextId
  {
    var u := s.rows[id];
    var access := GenerateAccessToken(u.username, u.role, now);
    var refresh := GenerateRefreshToken(u.username, u.role, now);
    Reply(Returns(Tokens(access, refresh)), Merge(s, id, u.(refreshToken := Some(refresh))))
  }

  /**
   * `login`: "User not found" for an unknown name, "Invalid credentials" for
   * a wrong password; otherwise both tokens for the user, whose stored refresh
   * token becomes the returned one.
   */
  function Login(s: UserStore, username: string, password: string, now: Millis): (r: Reply<Tokens, UserStore>)
    ensures r.outcome.Throws? ==> r.state == s
    ensures (forall id :: id in s.rows ==> s.rows[id].username != username) ==>
      r == Reply(Throws(ApiException(UserNotFound)), s)
    ensures forall id :: SoleUsername(s, id, username) && !Matches(password, s.rows[id].password) ==>
      r == Reply(Throws(ApiException(InvalidCredentials)), s)
    ensures r.outcome.Returns? <==>
      exists id :: SoleUsername(s, id, username) && Matches(password, s.rows[id].password)
    ensures forall id :: SoleUsername(s, id, username) && r.outcome.Returns? ==>
      var t := r.outcome.value;
      && r.state.rows == s.rows[id := s.rows[id].(refreshToken := Some(t.refreshToken))]
      && r.state.nextId == s.nextId
      && GetUsernameFromJwt(t.accessToken, now) == Returns(username)
      && GetRoleFromJwt(t.accessToken, now) == Returns(s.rows[id].role)
      && GetUsernameFromJwt(t.refreshToken, now) == Returns(username)
      && GetRoleFromJwt(t.refreshToken, now) == Returns(s.rows[id].role)
      && ExpiresAtMillis(t.accessToken) == now - now % 1000 + AccessTokenExpirationMs
      && ExpiresAtMillis(t.refreshToken) == now - now % 1000 + RefreshTokenExpirationMs
  {
    match FindByUsername(s, username)
    case Throws(e) => Reply(Throws(e), s)
    case Returns(None) => Reply(Throws(ApiException(UserNotFound)), s)
    case Returns(Some(id)) =>
      if !Matches(password, s.rows[id].password) then Reply(Throws(ApiException(InvalidCredentials)), s)
      else IssueTokens(s, id, now)
  }

  /**
   * `register`: refuses a name already present; otherwise adds one user with
   * the encoded password, role "USER", no name and no refresh token.
   */
  function Register(s: UserStore, username: string, password: string, now: Millis): (r: Reply<string, UserStore>)
    ensures (exists id :: id in s.rows && s.rows[id].username == username) <==> r.outcome.Throws?
    ensures r.outcome.Throws? ==> r.state == s
    ensures forall id :: SoleUsername(s, id, username) ==> r.outcome == Throws(ApiException(UsernameExists))
    ensures r.outcome.Returns? ==>
      && r.outcome.value == Registered
      && r.state.rows == s.rows[s.nextId := User(s.nextId, None, username, Encode(password), DefaultRole, None, now)]
      && (Valid(s) ==> Valid(r.state) && |r.state.rows| == |s.rows| + 1)
  {
    match FindByUsername(s, username)
    case Throws(e) => Reply(Throws(e), s)
    case Returns(Some(_)) => Reply(Throws(ApiException(UsernameExists)), s)
    case Returns(None) =>
      Reply(Returns(Registered), Persist(s, User(0, None, username, Encode(password), DefaultRole, None, 0), now))
  }

  /**
   * `refresh` as written: the holder is looked up by stored value, then the
   * request is refused when the token IS valid; only a stored token that fails
   * validation is rotated.
   */
  function Refresh(s: UserStore, token: Token, now: Millis): (r: Reply<Tokens, UserStore>)
    ensures r.outcome.Throws? ==> r.state == s
    ensures (forall id :: id in s.rows ==> s.rows[id].refreshToken != Some(token)) ==>
      r.outcome == Throws(ApiException(InvalidRefreshToken))
    ensures forall id :: SoleHolder(s, id, token) && Acceptable(token, now) ==>
      r.outcome == Throws(ApiException(InvalidRefreshToken))
    ensures r.outcome.Returns? <==>
      exists id :: SoleHolder(s, id, token) && !Acceptable(token, now) && !BlankToken(token)
    ensures forall id :: SoleHolder(s, id, token) && r.outcome.Returns? ==>
      r.state.rows == s.rows[id := s.rows[id].(refreshToken := Some(r.outcome.value.refreshToken))]
  {
    match FindByRefreshToken(s, token)
    case Throws(e) => Reply(Throws(e), s)
    case Returns(None) => Reply(Throws(ApiException(InvalidRefreshToken)), s)
    case Returns(Some(id)) =>
      match ValidateJwtToken(token, now)
      case Throws(e) => Reply(Throws(e), s)
      case Returns(true) => Reply(Throws(ApiException(InvalidRefreshToken)), s)
      case Returns(false) => IssueTokens(s, id, now)
  }

  /**
   * `refresh` with the validity check the error message implies: a stored
   * token is rotated only while it is still acceptable.
   */
  function RefreshIntended(s: UserStore, token: Token, now: Millis): (r: Reply<Tokens, UserStore>)
    ensures r.outcome.Throws? ==> r.state == s
    ensures (forall id :: id in s.rows ==> s.rows[id].refreshToken != Some(token)) ==>
      r.outcome == Throws(ApiException(InvalidRefreshToken))
    ensures forall id :: SoleHolder(s, id, token) && !Acceptable(token, now) && !BlankToken(token) ==>
      r.outcome == Throws(ApiException(InvalidRefreshToken))
    ensures r.outcome.Returns? <==> exists id :: SoleHolder(s, id, token) && Acceptable(token, now)
    ensures forall id :: SoleHolder(s, id, token) && r.outcome.Returns? ==>
      && r.state.rows == s.rows[id := s.rows[id].(refreshToken := Some(r.outcome.value.refreshToken))]
      && GetUsernameFromJwt(r.outcome.value.accessToken, now) == Returns(s.rows[id].username)
      && GetRoleFromJwt(r.outcome.value.accessToken, now) == Returns(s.rows[id].role)
  {
    match FindByRefreshToken(s, token)
    case Throws(e) => Reply(Throws(e), s)
    case Returns(None) => Reply(Throws(ApiException(InvalidRefreshToken)), s)
    case Returns(Some(id)) =>
      match ValidateJwtToken(token, now)
      case Throws(e) => Reply(Throws(e), s)
      case Returns(false) => Reply(Throws(ApiException(InvalidRefreshToken)), s)
      case Returns(true) => IssueTokens(s, id, now)
  }

  /** `logout`: the holder's stored refresh token becomes null. */
  function Logout(s: UserStore, token: Token): (r: Reply<(), UserStore>)
    ensures r.outcome.Throws? ==> r.state == s
    ensures (forall id :: id in s.rows ==> s.rows[id].refreshToken != Some(token)) ==>
      r.outcome == Throws(ApiException(InvalidRefreshToken))
    ensures r.outcome.Returns? <==> exists id :: SoleHolder(s, id, token)
    ensures forall id :: SoleHolder(s, id, token) ==>
      && r.state.rows == s.rows[id := s.rows[id].(refreshToken := None)]
      && r.state.nextId == s.nextId
  {
    match FindByRefreshToken(s, token)
    case Throws(e) => Reply(Throws(e), s)
    case Returns(None) => Reply(Throws(ApiException(InvalidRefreshToken)), s)
    case Returns(Some(id)) => Reply(Returns(()), Merge(s, id, s.rows[id].(refreshToken := None)))
  }

  // ---------------------------------------------------------------------------
  // Protocol properties

  /** After a row's refresh token is replaced by another value, the old value has no holder. */
  lemma ReplacedTokenHasNoHolder(s: UserStore, id: int, stale: Token, replacement: Option<Token>)
    requires SoleHolder(s, id, stale) && replacement != Some(stale)
    ensures var s' := UserStore(s.rows[id := s.rows[id].(refreshToken := replacement)], s.nextId);
      forall j :: j in s'.rows ==> s'.rows[j].refreshToken != Some(stale)
  {
  }

  /**
   * As written, the refresh token a login has just handed out is refused by
   * `refresh` for as long as it is valid.
   */
  lemma FreshLoginTokenRefusedByRefresh(s: UserStore, username: string, password: string, t: Millis, later: Millis)
    requires Login(s, username, password, t).outcome.Returns?
    requires t <= later <= t - t % 1000 + RefreshTokenExpirationMs
    ensures var l := Login(s, username, password, t);
      && Refresh(l.state, l.outcome.value.refreshToken, later).outcome.Throws?
      && Refresh(l.state, l.outcome.value.refreshToken, later).state == l.state
  {
    var l := Login(s, username, password, t);
    var rt := l.outcome.value.refreshToken;
    var id :| SoleUsername(s, id, username) && Matches(password, s.rows[id].password);
    assert Acceptable(rt, t);
    assert Acceptable(rt, later);
  }

  /**
   * With the intended check, a successful rotation that produced a new value
   * makes the old value unusable for a second refresh.
   */
  lemma RotationRetiresOldToken(s: UserStore, rt: Token, now: Millis, later: Millis)
    requires RefreshIntended(s, rt, now).outcome.Returns?
    requires RefreshIntended(s, rt, now).outcome.value.refreshToken != rt
    ensures var r := RefreshIntended(s, rt, now);
      RefreshIntended(r.state, rt, later) == Reply(Throws(ApiException(InvalidRefreshToken)), r.state)
  {
    var r := RefreshIntended(s, rt, now);
    var id :| SoleHolder(s, id, rt) && Acceptable(rt, now);
    ReplacedTokenHasNoHolder(s, id, rt, Some(r.outcome.value.refreshToken));
  }

  /**
   * Rotation within the second the stored token was issued in reproduces the
   * very same token and leaves the store as it was, so the "old" value stays
   * usable: rotation does not always yield a fresh value.
   */
  lemma RotationWithinSecondRepeatsToken(s: UserStore, id: int, issued: Millis, now: Millis)
    requires id in s.rows
    requires SoleHolder(s, id, GenerateRefreshToken(s.rows[id].username, s.rows[id].role, issued))
    requires Seconds(now) == Seconds(issued)
    ensures var rt := GenerateRefreshToken(s.rows[id].username, s.rows[id].role, issued);
            var r := RefreshIntended(s, rt, now);
      && r.outcome.Returns?
      && r.outcome.value.refreshToken == rt
      && r.state.rows == s.rows
      && RefreshIntended(r.state, rt, now).outcome.Returns?
  {
    var rt := GenerateRefreshToken(s.rows[id].username, s.rows[id].role, issued);
    assert Acceptable(rt, now);
    var r := RefreshIntended(s, rt, now);
    assert r.state.rows == s.rows[id := s.rows[id]];
    assert SoleHolder(r.state, id, rt);
  }

  /** A second logout with the same token fails: the first cleared the only holder. */
  lemma LogoutTwiceFails(s: UserStore, token: Token)
    requires Logout(s, token).outcome.Returns?
    ensures var s' := Logout(s, token).state;
      Logout(s', token) == Reply(Throws(ApiException(InvalidRefreshToken)), s')
  {
    var id :| SoleHolder(s, id, token);
    ReplacedTokenHasNoHolder(s, id, token, None);
  }

  /** Registering the same name twice: the second attempt is refused and changes nothing. */
  lemma RegisterTwiceFails(s: UserStore, username: string, p1: string, p2: string, t1: Millis, t2: Millis)
    requires Register(s, username, p1, t1).outcome.Returns?
    ensures var s' := Register(s, username, p1, t1).state;
      Register(s', username, p2, t2) == Reply(Throws(ApiException(UsernameExists)), s')
  {
    var s' := Register(s, username, p1, t1).state;
    assert SoleUsername(s', s.nextId, username);
  }
}

=== FILE: controllers.dfy ===
/**
 * The two REST controllers as far as they decide anything: the
 * `@PreAuthorize` guard on each route, the paging parameters, and how the
 * filter endpoints fill in the filter object.
 */
module Controllers {
  import opened Outcomes
  import opened Text
  import opened JwtUtil
  import opened Employees
  import opened Filters

  /** Every handler of `/api/employees` and `/api/admin/users`. */
  datatype Route =
    | CreateEmployee | CreateEmployees | UpdateEmployee | DeleteEmployee | DeleteEmployees
    | GetEmployee | ListEmployees | FilterEmployees
    | CreateUser | CreateUsers | UpdateUser | UpdateUsers | DeleteUser | DeleteUsers
    | ListUsers | FilterUsers

  /** A method-level guard expression. */
  datatype Guard =
    | Unguarded
    | HasRole(role: string)
    | HasAnyRole(roles: seq<string>)
    | HasAuthority(authority: string)

  const RolePrefix := "ROLE_"
  /** The one authority of an unauthenticated request. */
  const AnonymousAuthority := "ROLE_ANONYMOUS"

  /** `hasRole`/`hasAnyRole` add the default prefix unless the role already carries it. */
  function WithRolePrefix(role: string): (r: string)
    ensures IsPrefix(RolePrefix, r)
    ensures IsPrefix(RolePrefix, role) ==> r == role
    ensures !IsPrefix(RolePrefix, role) ==> r[|RolePrefix|..] == role
  {
    if IsPrefix(RolePrefix, role) then role else RolePrefix + role
  }

  /** The two roles the annotations name, with the prefix added. */
  lemma PrefixedRoles()
    ensures WithRolePrefix("ADMIN") == "ROLE_ADMIN" && WithRolePrefix("USER") == "ROLE_USER"
  {
    assert !IsPrefix(RolePrefix, "ADMIN") by { assert "ADMIN"[..5][0] != RolePrefix[0]; }
    assert !IsPrefix(RolePrefix, "USER");
  }

  /** The guard table as the annotations declare it. */
  function GuardOf(route: Route): Guard {
    if route.GetEmployee? then Unguarded
    else if route.ListUsers? then HasAuthority("ADMIN")
    else if route.CreateEmployee? || route.CreateEmployees? || route.UpdateEmployee?
         || route.DeleteEmployee? || route.DeleteEmployees? || route.ListEmployees? || route.FilterEmployees?
    then HasAnyRole(["ADMIN", "USER"])
    else HasRole("ADMIN")
  }

  /** The table with the list-users route guarded like its neighbours. */
  function CorrectedGuardOf(route: Route): Guard {
    if route.ListUsers? then HasRole("ADMIN") else GuardOf(route)
  }

  /** Whether a caller holding `authorities` passes `g`. */
  predicate Permits(g: Guard, authorities: seq<string>) {
    match g
    case Unguarded => true
    case HasRole(role) => WithRolePrefix(role) in authorities
    case HasAnyRole(roles) => exists i :: 0 <= i < |roles| && WithRolePrefix(roles[i]) in authorities
    case HasAuthority(a) => a in authorities
  }

  /** The authorities the security context holds for a request. */
  function Authorities(identity: Option<Identity>): (a: seq<string>)
    ensures identity.None? ==> a == [AnonymousAuthority]
    ensures identity.Some? ==> a == identity.value.authorities
  {
    if identity.None? then [AnonymousAuthority] else identity.value.authorities
  }

  /** The method-security interceptor in front of a handler. */
  function Authorize(table: Route -> Guard, route: Route, identity: Option<Identity>): (r: Outcome<()>)
    ensures r.Returns? <==> Permits(table(route), Authorities(identity))
    ensures r.Throws? ==> r.exception == AccessDenied
  {
    if Permits(table(route), Authorities(identity)) then Returns(()) else Throws(AccessDenied)
  }

  /** The handlers of `EmployeeController`; the others belong to `UserController`. */
  predicate IsEmployeeRoute(route: Route) {
    route.CreateEmployee? || route.CreateEmployees? || route.UpdateEmployee? || route.DeleteEmployee?
    || route.DeleteEmployees? || route.GetEmployee? || route.ListEmployees? || route.FilterEmployees?
  }

  /**
   * Who may call a route, in terms of the authorities a request holds: anyone
   * may fetch one employee; every other employee route admits "ROLE_ADMIN" or
   * "ROLE_USER"; the user list admits whoever holds `listAuthority`; every
   * other user route admits "ROLE_ADMIN" only.
   */
  predicate Admitted(route: Route, authorities: seq<string>, listAuthority: string) {
    if route.GetEmployee? then true
    else if IsEmployeeRoute(route) then "ROLE_ADMIN" in authorities || "ROLE_USER" in authorities
    else if route.ListUsers? then listAuthority in authorities
    else "ROLE_ADMIN" in authorities
  }

  /**
   * The guard table means `Admitted`: as annotated, the user list asks for the
   * bare authority "ADMIN"; corrected, it asks for "ROLE_ADMIN".
   */
  lemma GuardTableMeaning(route: Route, authorities: seq<string>)
    ensures Permits(GuardOf(route), authorities) <==> Admitted(route, authorities, "ADMIN")
    ensures Permits(CorrectedGuardOf(route), authorities) <==> Admitted(route, authorities, "ROLE_ADMIN")
  {
    PrefixedRoles();
    var both := ["ADMIN", "USER"];
    assert WithRolePrefix(both[0]) == "ROLE_ADMIN" && WithRolePrefix(both[1]) == "ROLE_USER";
  }

  /**
   * The interceptor in front of each handler lets a request through exactly
   * when its authorities are admitted, and otherwise refuses it with
   * `AccessDeniedException`.
   */
  lemma AuthorizeMeaning(route: Route, identity: Option<Identity>)
    ensures Authorize(GuardOf, route, identity) ==
      if Admitted(route, Authorities(identity), "ADMIN") then Returns(()) else Throws(AccessDenied)
    ensures Authorize(CorrectedGuardOf, route, identity) ==
      if Admitted(route, Authorities(identity), "ROLE_ADMIN") then Returns(()) else Throws(AccessDenied)
  {
    GuardTableMeaning(route, Authorities(identity));
  }

  /** The role a self-registered account gets passes no guarded route. */
  lemma RegisteredRoleLocksOut(route: Route)
    ensures Permits(GuardOf(route), ["USER"]) <==> route == GetEmployee
  {
    PrefixedRoles();
    if route != GetEmployee {
      assert "ROLE_ADMIN" != "USER" && "ROLE_USER" != "USER";
      if route.ListUsers? {
        assert "ADMIN" != "USER";
      }
    }
  }

  /** The seeded administrator role passes every route but the user list. */
  lemma AdminRoleAsWritten(route: Route)
    ensures Permits(GuardOf(route), ["ROLE_ADMIN"]) <==> route != ListUsers
  {
    PrefixedRoles();
    if route.ListUsers? {
      assert "ADMIN" != "ROLE_ADMIN";
    } else if GuardOf(route).HasAnyRole? {
      assert WithRolePrefix(GuardOf(route).roles[0]) in ["ROLE_ADMIN"];
    }
  }

  /** With the corrected table the administrator passes every route. */
  lemma AdminRoleCorrected(route: Route)
    ensures Permits(CorrectedGuardOf(route), ["ROLE_ADMIN"])
  {
    PrefixedRoles();
    if !route.ListUsers? {
      AdminRoleAsWritten(route);
    }
  }

  /** An anonymous request passes only the unguarded route. */
  lemma AnonymousOnlyReadsOne(route: Route)
    ensures Permits(GuardOf(route), Authorities(None)) <==> route == GetEmployee
  {
    PrefixedRoles();
    assert "ROLE_ADMIN" != AnonymousAuthority && "ROLE_USER" != AnonymousAuthority && "ADMIN" != AnonymousAuthority;
  }

  /**
   * A live token with role claim "USER" is refused on employee creation; one
   * with "ROLE_ADMIN" is let through.
   */
  lemma RoleClaimDecidesCreate(t: Token, now: Millis)
    requires Acceptable(t, now) && (t.role == "USER" || t.role == "ROLE_ADMIN")
    ensures var a := GetAuthentication(t, now);
      && a.Returns?
      && (t.role == "USER" ==> Authorize(GuardOf, CreateEmployee, a.value) == Throws(AccessDenied))
      && (t.role == "ROLE_ADMIN" ==> Authorize(GuardOf, CreateEmployee, a.value) == Returns(()))
  {
    assert HasText("USER") by { assert !IsJavaWhitespace("USER"[0]); }
    assert HasText("ROLE_ADMIN") by { assert !IsJavaWhitespace("ROLE_ADMIN"[0]); }
    RegisteredRoleLocksOut(CreateEmployee);
    AdminRoleAsWritten(CreateEmployee);
  }

  const DefaultPage := 0
  const DefaultSize := 10

  datatype PageRequest = PageRequest(page: nat, size: nat)

  /** `@RequestParam(defaultValue = …)` followed by `PageRequest.of`. */
  function Paging(page: Option<int>, size: Option<int>): (r: Outcome<PageRequest>)
    ensures var p := if page.Some? then page.value else DefaultPage;
      var n := if size.Some? then size.value else DefaultSize;
      && (r.Returns? <==> p >= 0 && n >= 1)
      && (r.Returns? ==> r.value.page == p && r.value.size == n)
      && (r.Throws? ==> r.exception == IllegalArgumentException)
  {
    var p := if page.Some? then page.value else DefaultPage;
    var n := if size.Some? then size.value else DefaultSize;
    if p < 0 || n < 1 then Throws(IllegalArgumentException) else Returns(PageRequest(p, n))
  }

  /** Without parameters the first page of ten is requested. */
  lemma DefaultPaging()
    ensures Paging(None, None) == Returns(PageRequest(0, 10))
  {
  }

  /** `filterEmployees`: seven request parameters copied in; `phone` is never set. */
  function EmployeeFilterFromParams(
    name: Option<string>, email: Option<string>, position: Option<string>,
    minSalary: Option<Salary>, maxSalary: Option<Salary>,
    startWorkDateFrom: Option<Day>, startWorkDateTo: Option<Day>): (f: EmployeeFilter)
    ensures f.phone.None?
    ensures f.name == name && f.email == email && f.position == position
    ensures f.minSalary == minSalary && f.maxSalary == maxSalary
    ensures f.startWorkDateFrom == startWorkDateFrom && f.startWorkDateTo == startWorkDateTo
  {
    EmployeeFilter(name, email, position, None, minSalary, maxSalary, startWorkDateFrom, startWorkDateTo)
  }

  /** Through the endpoint, the phone criterion never takes part. */
  lemma EndpointNeverFiltersPhone(
    name: Option<string>, email: Option<string>, position: Option<string>,
    minSalary: Option<Salary>, maxSalary: Option<Salary>,
    startWorkDateFrom: Option<Day>, startWorkDateTo: Option<Day>, e: Employee)
    ensures var cs := EmployeeCriteria(EmployeeFilterFromParams(name, email, position, minSalary, maxSalary, startWorkDateFrom, startWorkDateTo));
      forall i :: 0 <= i < |cs| ==> !cs[i].PhoneLike?
  {
  }

  /** `filterUsers`: the three parameters copied in unchanged. */
  function UserFilterFromParams(username: Option<string>, name: Option<string>, role: Option<string>): (f: UserFilter)
    ensures f.username == username && f.name == name && f.role == role
  {
    UserFilter(name, username, role)
  }
}

=== FILE: employee_seeder.dfy ===
/**
 * The start-up runner that fills an almost empty `employee` table with a
 * thousand generated employees, saved in batches of a hundred, each under a
 * unique address built from the employee's name and position in the run.
 * The generated names and the random retry numbers come from Faker; here
 * they are inputs.
 */
module EmployeeSeeder {
  import opened Outcomes
  import opened Text

  const Domain := "@company.com"
  const SeedCount := 1000
  const BatchSize := 100
  /** Seeding happens only below this many rows. */
  const SeedThreshold := 10
  /** `nextInt(1000)` draws from 0 to 999. */
  const DrawBound := 1000

  predicate IsLowerLetter(c: char) {
    'a' <= c <= 'z'
  }

  /** `replaceAll("[^a-z]", "")`: keeps the characters a to z, in order. */
  function KeepLowerLetters(s: string): (r: string)
    ensures |r| <= |s|
    ensures forall i :: 0 <= i < |r| ==> IsLowerLetter(r[i])
  {
    if s == [] then []
    else (if IsLowerLetter(s[0]) then [s[0]] else []) + KeepLowerLetters(s[1..])
  }

  /** A name as it appears in an address: lower-cased, then stripped to a to z. */
  function Sanitize(name: string): string {
    KeepLowerLetters(ToLower(name))
  }

  /** A string already made only of a to z survives the filter unchanged. */
  lemma {:induction false} KeepLowerLettersFixesClean(s: string)
    requires forall i :: 0 <= i < |s| ==> IsLowerLetter(s[i])
    ensures KeepLowerLetters(s) == s
  {
    if s != [] {
      KeepLowerLettersFixesClean(s[1..]);
    }
  }

  /** A string with no character from a to z is removed entirely. */
  lemma {:induction false} KeepLowerLettersDropsOthers(s: string)
    requires forall i :: 0 <= i < |s| ==> !IsLowerLetter(s[i])
    ensures KeepLowerLetters(s) == []
  {
    if s != [] {
      KeepLowerLettersDropsOthers(s[1..]);
    }
  }

  /**
   * The filter decides each character on its own: filtering a concatenation
   * concatenates the filtered parts. With the two lemmas above this fixes the
   * result as exactly the characters a to z of the input, in order.
   */
  lemma {:induction false} KeepLowerLettersConcat(a: string, b: string)
    ensures KeepLowerLetters(a + b) == KeepLowerLetters(a) + KeepLowerLetters(b)
    decreases |a|
  {
    if a == [] {
      assert a + b == b;
    } else {
      assert (a + b)[1..] == a[1..] + b;
      KeepLowerLettersConcat(a[1..], b);
    }
  }

  /** Sanitizing twice is sanitizing once. */
  lemma SanitizeIdempotent(name: string)
    ensures Sanitize(Sanitize(name)) == Sanitize(name)
  {
    var once := Sanitize(name);
    assert ToLower(once) == once by {
      assert forall i :: 0 <= i < |once| ==> LowerChar(once[i]) == once[i];
    }
    KeepLowerLettersFixesClean(once);
  }

  /** Upper-case letters are kept as their lower-case forms; other characters go. */
  lemma SanitizeExample()
    ensures Sanitize("O'Brien") == "obrien"
  {
    assert ToLower("O'Brien") == "o'brien";
    assert "o'brien"[1..] == "'brien";
    assert "'brien"[1..] == "brien";
    KeepLowerLettersFixesClean("brien");
  }

  /** The part of every address before any retry number. */
  function Stem(first: string, last: string, counter: nat): string {
    Sanitize(first) + "." + Sanitize(last) + NatToString(counter)
  }

  function BaseEmail(first: string, last: string, counter: nat): string {
    Stem(first, last, counter) + Domain
  }

  function RetryEmail(first: string, last: string, counter: nat, draw: nat): string {
    Stem(first, last, counter) + NatToString(draw) + Domain
  }

  /** How many digits end `s`. */
  function TrailingDigits(s: string): (n: nat)
    ensures n <= |s|
  {
    if s == [] || !IsAsciiDigit(s[|s| - 1]) then 0 else 1 + TrailingDigits(s[..|s| - 1])
  }

  /** Digits appended to a string that ends in a non-digit are exactly its trailing digits. */
  lemma {:induction false} TrailingDigitsOfSplit(p: string, d: string)
    requires p != [] && !IsAsciiDigit(p[|p| - 1])
    requires forall i :: 0 <= i < |d| ==> IsAsciiDigit(d[i])
    ensures TrailingDigits(p + d) == |d|
    decreases |d|
  {
    if d == [] {
      assert p + d == p;
    } else {
      var d' := d[..|d| - 1];
      assert (p + d)[..|p + d| - 1] == p + d';
      TrailingDigitsOfSplit(p, d');
    }
  }

  /**
   * A stem determines its counter: the sanitized names hold no digit and a
   * dot separates them, so the counter is the run of digits the stem ends in.
   */
  lemma StemDeterminesCounter(first1: string, last1: string, c1: nat, first2: string, last2: string, c2: nat)
    ensures Stem(first1, last1, c1) == Stem(first2, last2, c2) ==> c1 == c2
  {
    var p1 := Sanitize(first1) + "." + Sanitize(last1);
    var p2 := Sanitize(first2) + "." + Sanitize(last2);
    EndsInNonDigit(first1, last1);
    EndsInNonDigit(first2, last2);
    TrailingDigitsOfSplit(p1, NatToString(c1));
    TrailingDigitsOfSplit(p2, NatToString(c2));
    var st := Stem(first1, last1, c1);
    if st == Stem(first2, last2, c2) {
      assert NatToString(c1) == st[|st| - |NatToString(c1)|..];
      assert NatToString(c2) == st[|st| - |NatToString(c2)|..];
      NatToStringInjective(c1, c2);
    }
  }

  lemma EndsInNonDigit(first: string, last: string)
    ensures var p := Sanitize(first) + "." + Sanitize(last); p != [] && !IsAsciiDigit(p[|p| - 1])
  {
    var l := Sanitize(last);
    var p := Sanitize(first) + "." + l;
    if l != [] {
      assert p[|p| - 1] == l[|l| - 1];
    }
  }

  /** Base addresses of different positions in the run never collide, whatever the names. */
  lemma BaseEmailDeterminesCounter(first1: string, last1: string, c1: nat, first2: string, last2: string, c2: nat)
    ensures BaseEmail(first1, last1, c1) == BaseEmail(first2, last2, c2) ==> c1 == c2
  {
    var s1 := Stem(first1, last1, c1);
    var s2 := Stem(first2, last2, c2);
    if BaseEmail(first1, last1, c1) == BaseEmail(first2, last2, c2) {
      assert s1 == BaseEmail(first1, last1, c1)[..|s1|];
      assert s2 == BaseEmail(first2, last2, c2)[..|s2|];
      StemDeterminesCounter(first1, last1, c1, first2, last2, c2);
    }
  }

  /**
   * `generateUniqueEmail`: the base address if it is unused, otherwise the
   * first retry address (with the next random number) that is unused; the
   * result is recorded as used. `draws` stands for the random numbers the
   * loop would draw; if they run out before a free address turns up the
   * result is `None` and nothing is recorded.
   */
  method GenerateUniqueEmail(first: string, last: string, counter: nat, used: set<string>, draws: seq<nat>)
    returns (email: Option<string>, used': set<string>)
    requires forall k :: 0 <= k < |draws| ==> draws[k] < DrawBound
    ensures email.Some? ==> email.value !in used && used' == used + {email.value}
    ensures email.Some? ==> EndsWith(email.value, Domain) && IsPrefix(Stem(first, last, counter), email.value)
    ensures BaseEmail(first, last, counter) !in used ==> email == Some(BaseEmail(first, last, counter))
    ensures email.Some? && email.value != BaseEmail(first, last, counter) ==>
      && BaseEmail(first, last, counter) in used
      && exists k ::
           && 0 <= k < |draws| && email.value == RetryEmail(first, last, counter, draws[k])
           && forall j :: 0 <= j < k ==> RetryEmail(first, last, counter, draws[j]) in used
    ensures email.None? ==>
      && used' == used
      && BaseEmail(first, last, counter) in used
      && forall k :: 0 <= k < |draws| ==> RetryEmail(first, last, counter, draws[k]) in used
  {
    var base := BaseEmail(first, last, counter);
    var candidate := base;
    var k := 0;
    while candidate in used
      invariant 0 <= k <= |draws|
      invariant k == 0 ==> candidate == base
      invariant k > 0 ==> candidate == RetryEmail(first, last, counter, draws[k - 1]) && base in used
      invariant forall j :: 0 <= j < k - 1 ==> RetryEmail(first, last, counter, draws[j]) in used
      decreases |draws| - k
    {
      if k == |draws| {
        return None, used;
      }
      candidate := RetryEmail(first, last, counter, draws[k]);
      k := k + 1;
    }
    assert IsPrefix(Stem(first, last, counter), candidate);
    return Some(candidate), used + {candidate};
  }

  predicate Distinct(emails: seq<string>) {
    forall i, j :: 0 <= i < j < |emails| ==> emails[i] != emails[j]
  }

  /** Addresses built as base addresses, each with its own position as counter. */
  predicate BuiltInOrder(emails: seq<string>, names: seq<(string, string)>) {
    |emails| <= |names| && forall j :: 0 <= j < |emails| ==> emails[j] == BaseEmail(names[j].0, names[j].1, j)
  }

  /** The next base address is not among those already built. */
  lemma NextBaseIsFresh(emails: seq<string>, names: seq<(string, string)>)
    requires BuiltInOrder(emails, names) && |emails| < |names|
    ensures BaseEmail(names[|emails|].0, names[|emails|].1, |emails|) !in emails
  {
    var i := |emails|;
    forall j | 0 <= j < i
      ensures emails[j] != BaseEmail(names[i].0, names[i].1, i)
    {
      BaseEmailDeterminesCounter(names[j].0, names[j].1, j, names[i].0, names[i].1, i);
    }
  }

  /** Base addresses built in order are pairwise distinct and all end in the domain. */
  lemma BuiltInOrderDistinct(emails: seq<string>, names: seq<(string, string)>)
    requires BuiltInOrder(emails, names)
    ensures Distinct(emails)
    ensures forall i :: 0 <= i < |emails| ==> EndsWith(emails[i], Domain)
  {
    forall i, j | 0 <= i < j < |emails|
      ensures emails[i] != emails[j]
    {
      BaseEmailDeterminesCounter(names[i].0, names[i].1, i, names[j].0, names[j].1, j);
    }
    forall i | 0 <= i < |emails|
      ensures EndsWith(emails[i], Domain)
    {
      var st := Stem(names[i].0, names[i].1, i);
      assert (st + Domain)[|st|..] == Domain;
    }
  }

  /**
   * `run`: with fewer than ten rows present, a thousand employees are built
   * in order (employee `i` uses `i` as its counter) and handed to `saveAll`
   * a hundred at a time; otherwise nothing happens. `emails` lists the
   * addresses in build order and `batches` the size of each `saveAll`.
   * Since the counter makes every base address new, no retry number is ever
   * drawn.
   */
  method Run(count: nat, names: seq<(string, string)>, draws: seq<seq<nat>>)
    returns (emails: seq<string>, batches: seq<nat>)
    requires |names| == SeedCount && |draws| == SeedCount
    requires forall i, k :: 0 <= i < SeedCount && 0 <= k < |draws[i]| ==> draws[i][k] < DrawBound
    ensures count >= SeedThreshold ==> emails == [] && batches == []
    ensures count < SeedThreshold ==>
      && |emails| == SeedCount
      && (forall i :: 0 <= i < SeedCount ==> emails[i] == BaseEmail(names[i].0, names[i].1, i))
      && |batches| == SeedCount / BatchSize
      && (forall k :: 0 <= k < |batches| ==> batches[k] == BatchSize)
    ensures Distinct(emails)
    ensures forall i :: 0 <= i < |emails| ==> EndsWith(emails[i], Domain)
  {
    emails, batches := [], [];
    if count >= SeedThreshold {
      return;
    }
    var used: set<string> := {};
    var pending := 0;
    var i := 0;
    while i < SeedCount
      invariant 0 <= i <= SeedCount
      invariant |emails| == i
      invariant used == set e | e in emails
      invariant BuiltInOrder(emails, names)
      invariant pending == i % BatchSize
      invariant |batches| == i / BatchSize
      invariant forall k :: 0 <= k < |batches| ==> batches[k] == BatchSize
    {
      NextBaseIsFresh(emails, names);
      var email, used' := GenerateUniqueEmail(names[i].0, names[i].1, i, used, draws[i]);
      emails := emails + [email.value];
      used := used';
      pending := pending + 1;
      if (i + 1) % BatchSize == 0 && pending > 0 {
        batches := batches + [pending];
        pending := 0;
      }
      i := i + 1;
    }
    if pending > 0 {
      batches := batches + [pending];
    }
    BuiltInOrderDistinct(emails, names);
  }
}

=== FILE: employees.dfy ===
/**
 * The `employee` table and the employee service: create, bulk create,
 * partial update, delete and lookup, with email uniqueness.
 */
module Employees {
  import opened Outcomes

  /** A salary is only ever compared, never computed with. */
  type Salary = int
  /** A `LocalDate`, as a day number. */
  type Day = int

  /**
   * A row of `employee`: `firstName`, `lastName`, `email` and
   * `startWorkDate` are non-null, `email` is unique, the rest may be null;
   * the id is generated by the store.
   */
  datatype Employee = Employee(
    id: int,
    firstName: string,
    lastName: string,
    email: string,
    phone: Option<string>,
    position: Option<string>,
    salary: Option<Salary>,
    startWorkDate: Day)

  datatype CreateEmployeeRequest = CreateEmployeeRequest(
    firstName: string,
    lastName: string,
    email: string,
    phone: Option<string>,
    position: Option<string>,
    salary: Option<Salary>,
    startWorkDate: Day)

  /** Every field optional: a null field means "leave unchanged". */
  datatype UpdateEmployeeRequest = UpdateEmployeeRequest(
    firstName: Option<string>,
    lastName: Option<string>,
    email: Option<string>,
    phone: Option<string>,
    position: Option<string>,
    salary: Option<Salary>,
    startWorkDate: Option<Day>)

  datatype EmployeeStore = EmployeeStore(rows: map<int, Employee>, nextId: int)

  const EmployeeNotFound := "Employee not found"
  const EmailExists := "Email already exists"

  ghost predicate EmailsUnique(rows: map<int, Employee>) {
    forall a, b :: a in rows && b in rows && a != b ==> rows[a].email != rows[b].email
  }

  /** Rows stored under their ids, the counter past every id, emails unique. */
  ghost predicate Valid(s: EmployeeStore) {
    && (forall id :: id in s.rows ==> s.rows[id].id == id && id < s.nextId)
    && EmailsUnique(s.rows)
  }

  /** `existsByEmail`. */
  predicate ExistsByEmail(s: EmployeeStore, email: string) {
    exists id :: id in s.rows && s.rows[id].email == email
  }

  /** The employee carries exactly the request's seven fields. */
  predicate Carries(e: Employee, req: CreateEmployeeRequest) {
    && e.firstName == req.firstName && e.lastName == req.lastName && e.email == req.email
    && e.phone == req.phone && e.position == req.position && e.salary == req.salary
    && e.startWorkDate == req.startWorkDate
  }

  function Build(req: CreateEmployeeRequest, id: int): (e: Employee)
    ensures Carries(e, req) && e.id == id
  {
    Employee(id, req.firstName, req.lastName, req.email, req.phone, req.position, req.salary, req.startWorkDate)
  }

  /** `save` of a new entity under the next generated id. */
  function Insert(s: EmployeeStore, req: CreateEmployeeRequest): (r: (Employee, EmployeeStore))
    ensures Carries(r.0, req) && r.0.id == s.nextId
    ensures r.1 == EmployeeStore(s.rows[s.nextId := r.0], s.nextId + 1)
  {
    var e := Build(req, s.nextId);
    (e, EmployeeStore(s.rows[s.nextId := e], s.nextId + 1))
  }

  /** `createEmployee`: refuses a taken email, otherwise stores the request as given. */
  function CreateEmployee(s: EmployeeStore, req: CreateEmployeeRequest): (r: Reply<Employee, EmployeeStore>)
    ensures r.outcome.Throws? <==> ExistsByEmail(s, req.email)
    ensures r.outcome.Throws? ==> r == Reply(Throws(ApiException(EmailExists)), s)
    ensures r.outcome.Returns? ==>
      && Carries(r.outcome.value, req)
      && r.state.rows == s.rows[s.nextId := r.outcome.value]
      && r.outcome.value.id == s.nextId
    ensures Valid(s) ==> Valid(r.state)
  {
    if ExistsByEmail(s, req.email) then Reply(Throws(ApiException(EmailExists)), s)
    else
      var (e, s') := Insert(s, req);
      Reply(Returns(e), s')
  }

  /** The first request, in order, whose email the store already holds. */
  function FirstTaken(s: EmployeeStore, reqs: seq<CreateEmployeeRequest>): (r: Option<string>)
    ensures r.None? <==> forall i :: 0 <= i < |reqs| ==> !ExistsByEmail(s, reqs[i].email)
    ensures r.Some? ==>
      exists i :: 0 <= i < |reqs| && reqs[i].email == r.value && ExistsByEmail(s, r.value)
        && forall j :: 0 <= j < i ==> !ExistsByEmail(s, reqs[j].email)
  {
    if reqs == [] then None
    else if ExistsByEmail(s, reqs[0].email) then Some(reqs[0].email)
    else
      var rest := FirstTaken(s, reqs[1..]);
      assert forall j :: 1 <= j < |reqs| ==> reqs[1..][j - 1] == reqs[j];
      rest
  }

  predicate DistinctEmails(reqs: seq<CreateEmployeeRequest>) {
    forall i, j :: 0 <= i < j < |reqs| ==> reqs[i].email != reqs[j].email
  }

  /**
   * The position of the first request, from `k` on, whose email repeats an
   * earlier one in the batch; `|reqs|` when there is none.
   */
  function FirstRepeatFrom(reqs: seq<CreateEmployeeRequest>, k: nat): (r: nat)
    requires k <= |reqs| && DistinctEmails(reqs[..k])
    ensures k <= r <= |reqs|
    ensures DistinctEmails(reqs[..r])
    ensures r < |reqs| ==> exists j :: 0 <= j < r && reqs[j].email == reqs[r].email
    decreases |reqs| - k
  {
    if k == |reqs| then k
    else if exists j :: 0 <= j < k && reqs[j].email == reqs[k].email then k
    else
      assert forall i :: 0 <= i <= k ==> reqs[..k + 1][i] == reqs[i];
      FirstRepeatFrom(reqs, k + 1)
  }

  /**
   * The first request whose email repeats an earlier one in the batch: the
   * insert at which the unique constraint fires. `|reqs|` when the emails are
   * pairwise distinct.
   */
  function FirstRepeat(reqs: seq<CreateEmployeeRequest>): (r: nat)
    ensures r <= |reqs|
    ensures r == |reqs| <==> DistinctEmails(reqs)
    ensures DistinctEmails(reqs[..r])
    ensures r < |reqs| ==> exists j :: 0 <= j < r && reqs[j].email == reqs[r].email
  {
    assert reqs[..0] == [];
    assert reqs[..|reqs|] == reqs;
    FirstRepeatFrom(reqs, 0)
  }

  /** The row a batch starting at id `base` puts under `id`. */
  function RowAt(es: seq<Employee>, base: int, id: int): Employee
    requires base <= id < base + |es|
  {
    es[id - base]
  }

  /** `saveAll` of new entities: the i-th request becomes row `nextId + i`. */
  function InsertAll(s: EmployeeStore, reqs: seq<CreateEmployeeRequest>): (r: (seq<Employee>, EmployeeStore))
    ensures |r.0| == |reqs|
    ensures forall i :: 0 <= i < |reqs| ==> Carries(r.0[i], reqs[i]) && r.0[i].id == s.nextId + i
    ensures r.1.nextId == s.nextId + |reqs|
    ensures forall id :: id in r.1.rows <==> id in s.rows || s.nextId <= id < s.nextId + |reqs|
    ensures forall i :: 0 <= i < |reqs| ==> r.1.rows[s.nextId + i] == r.0[i]
    ensures forall id :: id in s.rows && id < s.nextId ==> r.1.rows[id] == s.rows[id]
  {
    var es := seq(|reqs|, i requires 0 <= i < |reqs| => Build(reqs[i], s.nextId + i));
    var added := map id | s.nextId <= id < s.nextId + |reqs| :: RowAt(es, s.nextId, id);
    (es, EmployeeStore(s.rows + added, s.nextId + |reqs|))
  }

  /** A batch of fresh, pairwise distinct emails keeps the store valid. */
  lemma InsertAllKeepsValid(s: EmployeeStore, reqs: seq<CreateEmployeeRequest>)
    requires DistinctEmails(reqs)
    requires forall i :: 0 <= i < |reqs| ==> !ExistsByEmail(s, reqs[i].email)
    ensures Valid(s) ==> Valid(InsertAll(s, reqs).1)
  {
    var s' := InsertAll(s, reqs).1;
    if Valid(s) {
      InsertAllKeepsIds(s, reqs);
      forall a, b | a in s'.rows && b in s'.rows && a != b
        ensures s'.rows[a].email != s'.rows[b].email
      {
        BatchEmailsDistinct(s, reqs, a, b);
      }
    }
  }

  /** After a batch insert every row still sits under its own id, below the counter. */
  lemma InsertAllKeepsIds(s: EmployeeStore, reqs: seq<CreateEmployeeRequest>)
    requires forall id :: id in s.rows ==> s.rows[id].id == id && id < s.nextId
    ensures var s' := InsertAll(s, reqs).1;
      forall id :: id in s'.rows ==> s'.rows[id].id == id && id < s'.nextId
  {
    var (es, s') := InsertAll(s, reqs);
    forall id | id in s'.rows ensures s'.rows[id].id == id && id < s'.nextId {
      if id >= s.nextId {
        assert s'.rows[s.nextId + (id - s.nextId)] == es[id - s.nextId];
      }
    }
  }

  lemma BatchEmailsDistinct(s: EmployeeStore, reqs: seq<CreateEmployeeRequest>, a: int, b: int)
    requires Valid(s) && DistinctEmails(reqs)
    requires forall i :: 0 <= i < |reqs| ==> !ExistsByEmail(s, reqs[i].email)
    requires var s' := InsertAll(s, reqs).1; a in s'.rows && b in s'.rows && a != b
    ensures var s' := InsertAll(s, reqs).1; s'.rows[a].email != s'.rows[b].email
  {
    var n := s.nextId;
    var ea := EmailAt(s, reqs, a);
    var eb := EmailAt(s, reqs, b);
    if a >= n && b >= n {
      if a < b {
        assert reqs[a - n].email != reqs[b - n].email;
      } else {
        assert reqs[b - n].email != reqs[a - n].email;
      }
    } else if a >= n {
      assert !ExistsByEmail(s, reqs[a - n].email);
    } else if b >= n {
      assert !ExistsByEmail(s, reqs[b - n].email);
    }
  }

  /** Where the email of a row after a batch insert comes from. */
  lemma EmailAt(s: EmployeeStore, reqs: seq<CreateEmployeeRequest>, id: int) returns (email: string)
    requires Valid(s)
    requires id in InsertAll(s, reqs).1.rows
    ensures email == InsertAll(s, reqs).1.rows[id].email
    ensures id >= s.nextId ==> id - s.nextId < |reqs| && email == reqs[id - s.nextId].email
    ensures id < s.nextId ==> id in s.rows && email == s.rows[id].email
  {
    var s' := InsertAll(s, reqs).1;
    email := s'.rows[id].email;
    if id >= s.nextId {
      assert s'.rows[s.nextId + (id - s.nextId)] == InsertAll(s, reqs).0[id - s.nextId];
    }
  }

  /**
   * `createEmployees`: every email is checked against the store before any
   * save, and the first taken one aborts the call; emails repeated inside the
   * batch pass that check and are caught by the unique constraint. The
   * rollback removes every row of the batch, but not the identity values
   * the inserts up to and including the refused one drew.
   */
  function CreateEmployees(s: EmployeeStore, reqs: seq<CreateEmployeeRequest>): (r: Reply<seq<Employee>, EmployeeStore>)
    ensures r.outcome.Throws? ==> r.state.rows == s.rows
    ensures r.outcome.Throws? && r.outcome != Throws(DataIntegrityViolation) ==> r.state == s
    ensures r.outcome == Throws(DataIntegrityViolation) ==>
      && FirstRepeat(reqs) < |reqs|
      && r.state.nextId == s.nextId + FirstRepeat(reqs) + 1
    ensures Valid(s) ==> Valid(r.state)
    ensures forall i ::
      (0 <= i < |reqs| && ExistsByEmail(s, reqs[i].email) && forall j :: 0 <= j < i ==> !ExistsByEmail(s, reqs[j].email)) ==>
      r.outcome == Throws(ApiException(EmailExists + ": " + reqs[i].email))
    ensures r.outcome.Returns? <==>
      DistinctEmails(reqs) && forall i :: 0 <= i < |reqs| ==> !ExistsByEmail(s, reqs[i].email)
    ensures r.outcome.Returns? ==>
      && |r.outcome.value| == |reqs|
      && (forall id :: id in r.state.rows <==> id in s.rows || s.nextId <= id < s.nextId + |reqs|)
      && (forall i :: 0 <= i < |reqs| ==>
            && Carries(r.outcome.value[i], reqs[i])
            && r.outcome.value[i].id == s.nextId + i
            && r.state.rows[s.nextId + i] == r.outcome.value[i])
      && (forall id :: id in s.rows && id < s.nextId ==> r.state.rows[id] == s.rows[id])
      && r.state.nextId == s.nextId + |reqs|
  {
    match FirstTaken(s, reqs)
    case Some(email) => Reply(Throws(ApiException(EmailExists + ": " + email)), s)
    case None =>
      if !DistinctEmails(reqs) then Reply(Throws(DataIntegrityViolation), s.(nextId := s.nextId + FirstRepeat(reqs) + 1))
      else
        var (es, s') := InsertAll(s, reqs);
        InsertAllKeepsValid(s, reqs);
        Reply(Returns(es), s')
  }

  /**
   * A batch that repeats one fresh email is refused, and the two identity
   * values its inserts drew stay spent: the next employee created gets an id
   * two past the one it would have had.
   */
  lemma FailedBatchSpendsIds(s: EmployeeStore, req: CreateEmployeeRequest, next: CreateEmployeeRequest)
    requires !ExistsByEmail(s, req.email) && !ExistsByEmail(s, next.email)
    ensures var r := CreateEmployees(s, [req, req]);
      && r == Reply(Throws(DataIntegrityViolation), s.(nextId := s.nextId + 2))
      && CreateEmployee(r.state, next).outcome.value.id == s.nextId + 2
  {
    assert !DistinctEmails([req, req]) by {
      assert [req, req][0].email == [req, req][1].email;
    }
  }

  /** The partial update: each non-null field overwrites, each null field keeps. */
  function Patch(e: Employee, req: UpdateEmployeeRequest): (e': Employee)
    ensures e'.id == e.id
    ensures e'.firstName == (if req.firstName.Some? then req.firstName.value else e.firstName)
    ensures e'.lastName == (if req.lastName.Some? then req.lastName.value else e.lastName)
    ensures e'.email == (if req.email.Some? then req.email.value else e.email)
    ensures e'.phone == (if req.phone.Some? then req.phone else e.phone)
    ensures e'.position == (if req.position.Some? then req.position else e.position)
    ensures e'.salary == (if req.salary.Some? then req.salary else e.salary)
    ensures e'.startWorkDate == (if req.startWorkDate.Some? then req.startWorkDate.value else e.startWorkDate)
  {
    var e1 := if req.firstName.Some? then e.(firstName := req.firstName.value) else e;
    var e2 := if req.lastName.Some? then e1.(lastName := req.lastName.value) else e1;
    var e3 := if req.email.Some? then e2.(email := req.email.value) else e2;
    var e4 := if req.phone.Some? then e3.(phone := req.phone) else e3;
    var e5 := if req.position.Some? then e4.(position := req.position) else e4;
    var e6 := if req.salary.Some? then e5.(salary := req.salary) else e5;
    if req.startWorkDate.Some? then e6.(startWorkDate := req.startWorkDate.value) else e6
  }

  /**
   * `updateEmployee`: unknown id and an email held by another row are
   * refused; resubmitting the row's own email is allowed.
   */
  function UpdateEmployee(s: EmployeeStore, id: int, req: UpdateEmployeeRequest): (r: Reply<Employee, EmployeeStore>)
    ensures r.outcome.Throws? ==> r.state == s
    ensures id !in s.rows ==> r.outcome == Throws(ApiException(EmployeeNotFound))
    ensures id in s.rows && req.email.Some? && req.email.value != s.rows[id].email && ExistsByEmail(s, req.email.value) ==>
      r.outcome == Throws(ApiException(EmailExists))
    ensures r.outcome.Returns? <==>
      id in s.rows && (req.email.None? || req.email.value == s.rows[id].email || !ExistsByEmail(s, req.email.value))
    ensures r.outcome.Returns? ==>
      && r.outcome.value == Patch(s.rows[id], req)
      && r.state == s.(rows := s.rows[id := r.outcome.value])
  {
    if id !in s.rows then Reply(Throws(ApiException(EmployeeNotFound)), s)
    else
      var e := s.rows[id];
      if req.email.Some? && req.email.value != e.email && ExistsByEmail(s, req.email.value) then
        Reply(Throws(ApiException(EmailExists)), s)
      else
        var e' := Patch(e, req);
        Reply(Returns(e'), s.(rows := s.rows[id := e']))
  }

  /** An accepted update keeps emails unique and never moves the row. */
  lemma UpdateKeepsValid(s: EmployeeStore, id: int, req: UpdateEmployeeRequest)
    requires Valid(s)
    ensures Valid(UpdateEmployee(s, id, req).state)
  {
    var r := UpdateEmployee(s, id, req);
    if r.outcome.Returns? {
      var s' := r.state;
      forall a, b | a in s'.rows && b in s'.rows && a != b
        ensures s'.rows[a].email != s'.rows[b].email
      {
      }
    }
  }

  /** `deleteEmployee`: unknown id refused, otherwise exactly that row goes. */
  function DeleteEmployee(s: EmployeeStore, id: int): (r: Reply<(), EmployeeStore>)
    ensures r.outcome.Throws? <==> id !in s.rows
    ensures r.outcome.Throws? ==> r == Reply(Throws(ApiException(EmployeeNotFound)), s)
    ensures r.outcome.Returns? ==>
      && r.state.rows.Keys == s.rows.Keys - {id}
      && (forall k :: k in r.state.rows ==> r.state.rows[k] == s.rows[k])
      && (Valid(s) ==> Valid(r.state))
  {
    if id !in s.rows then Reply(Throws(ApiException(EmployeeNotFound)), s)
    else Reply(Returns(()), s.(rows := s.rows - {id}))
  }

  /** `deleteEmployees`: every listed id that exists goes; unknown ids are skipped. */
  function DeleteEmployees(s: EmployeeStore, ids: seq<int>): (s': EmployeeStore)
    ensures forall k :: k in s'.rows <==> k in s.rows && k !in ids
    ensures forall k :: k in s'.rows ==> s'.rows[k] == s.rows[k]
  {
    s.(rows := map k | k in s.rows && k !in ids :: s.rows[k])
  }

  /** `getEmployeeById`: the stored row, or "Employee not found". */
  function GetEmployeeById(s: EmployeeStore, id: int): (r: Outcome<Employee>)
    ensures r.Returns? <==> id in s.rows
    ensures r.Returns? ==> r.value == s.rows[id]
    ensures r.Throws? ==> r.exception == ApiException(EmployeeNotFound)
  {
    if id in s.rows then Returns(s.rows[id]) else Throws(ApiException(EmployeeNotFound))
  }

  /** A created employee reads back unchanged by its generated id. */
  lemma CreateThenGet(s: EmployeeStore, req: CreateEmployeeRequest)
    requires CreateEmployee(s, req).outcome.Returns?
    ensures var r := CreateEmployee(s, req);
      GetEmployeeById(r.state, r.outcome.value.id) == Returns(r.outcome.value)
  {
  }

  /** Deleting a row makes it unreadable and a second delete fails. */
  lemma DeleteThenGone(s: EmployeeStore, id: int)
    requires id in s.rows
    ensures var s' := DeleteEmployee(s, id).state;
      && GetEmployeeById(s', id) == Throws(ApiException(EmployeeNotFound))
      && DeleteEmployee(s', id) == Reply(Throws(ApiException(EmployeeNotFound)), s')
  {
  }
}

=== FILE: filters.dfy ===
/**
 * The two filter specifications: the criteria each builds from its filter
 * object, and what a record must satisfy to be selected.
 */
module Filters {
  import opened Outcomes
  import opened Text
  import opened SqlLike
  import opened Employees
  import opened Users

  datatype EmployeeFilter = EmployeeFilter(
    name: Option<string>,
    email: Option<string>,
    position: Option<string>,
    phone: Option<string>,
    minSalary: Option<Salary>,
    maxSalary: Option<Salary>,
    startWorkDateFrom: Option<Day>,
    startWorkDateTo: Option<Day>)

  datatype UserFilter = UserFilter(name: Option<string>, username: Option<string>, role: Option<string>)

  /** A string criterion takes part when it is non-null and not blank after `trim`. */
  predicate Active(v: Option<string>) {
    v.Some? && !IsBlank(v.value)
  }

  /** One predicate the specification adds to its list. */
  datatype Criterion =
    | FirstOrLastNameLike(pattern: string)
    | EmailLike(pattern: string)
    | PositionLike(pattern: string)
    | PhoneLike(pattern: string)
    | SalaryAtLeast(min: Salary)
    | SalaryAtMost(max: Salary)
    | StartsOnOrAfter(from: Day)
    | StartsOnOrBefore(to: Day)
    | UserNameLike(pattern: string)
    | UsernameLike(pattern: string)
    | RoleIs(role: string)

  /** A nullable column under `LIKE`: SQL NULL never matches. */
  predicate LikeColumn(v: Option<string>, pattern: string) {
    v.Some? && Like(v.value, pattern)
  }

  /** A nullable column under `>=`/`<=`: SQL NULL never compares true. */
  predicate AtLeast(v: Option<int>, bound: int) {
    v.Some? && v.value >= bound
  }

  predicate AtMost(v: Option<int>, bound: int) {
    v.Some? && v.value <= bound
  }

  predicate HoldsFor(c: Criterion, e: Employee) {
    match c
    case FirstOrLastNameLike(p) => Like(ToLower(e.firstName), p) || Like(ToLower(e.lastName), p)
    case EmailLike(p) => Like(ToLower(e.email), p)
    case PositionLike(p) => LikeColumn(if e.position.Some? then Some(ToLower(e.position.value)) else None, p)
    case PhoneLike(p) => LikeColumn(e.phone, p)
    case SalaryAtLeast(m) => AtLeast(e.salary, m)
    case SalaryAtMost(m) => AtMost(e.salary, m)
    case StartsOnOrAfter(d) => e.startWorkDate >= d
    case StartsOnOrBefore(d) => e.startWorkDate <= d
    case _ => true
  }

  predicate HoldsForUser(c: Criterion, u: User) {
    match c
    case UserNameLike(p) => LikeColumn(if u.name.Some? then Some(ToLower(u.name.value)) else None, p)
    case UsernameLike(p) => Like(ToLower(u.username), p)
    case RoleIs(r) => u.role == r
    case _ => true
  }

  /** The four string criteria, in the order `withFilter` adds them. */
  function StringCriteria(f: EmployeeFilter): (cs: seq<Criterion>)
    ensures cs == [] <==> !Active(f.name) && !Active(f.email) && !Active(f.position) && !Active(f.phone)
  {
    (if Active(f.name) then [FirstOrLastNameLike(Around(ToLower(f.name.value)))] else [])
    + (if Active(f.email) then [EmailLike(Around(ToLower(f.email.value)))] else [])
    + (if Active(f.position) then [PositionLike(Around(ToLower(f.position.value)))] else [])
    + (if Active(f.phone) then [PhoneLike(Around(f.phone.value))] else [])
  }

  /** The four bounds, after the string criteria. */
  function BoundCriteria(f: EmployeeFilter): (cs: seq<Criterion>)
    ensures cs == [] <==>
      f.minSalary.None? && f.maxSalary.None? && f.startWorkDateFrom.None? && f.startWorkDateTo.None?
  {
    (if f.minSalary.Some? then [SalaryAtLeast(f.minSalary.value)] else [])
    + (if f.maxSalary.Some? then [SalaryAtMost(f.maxSalary.value)] else [])
    + (if f.startWorkDateFrom.Some? then [StartsOnOrAfter(f.startWorkDateFrom.value)] else [])
    + (if f.startWorkDateTo.Some? then [StartsOnOrBefore(f.startWorkDateTo.value)] else [])
  }

  /** `EmployeeSpecification.withFilter`: the predicate list in the order it is built. */
  function EmployeeCriteria(f: EmployeeFilter): (cs: seq<Criterion>)
    ensures |cs| <= 8
    ensures cs == [] <==>
      && !Active(f.name) && !Active(f.email) && !Active(f.position) && !Active(f.phone)
      && f.minSalary.None? && f.maxSalary.None? && f.startWorkDateFrom.None? && f.startWorkDateTo.None?
  {
    StringCriteria(f) + BoundCriteria(f)
  }

  /** The conjunction of a list, `cb.conjunction()` (true) when it is empty. */
  predicate AllHold(cs: seq<Criterion>, e: Employee) {
    forall i :: 0 <= i < |cs| ==> HoldsFor(cs[i], e)
  }

  predicate EmployeeMatches(f: EmployeeFilter, e: Employee) {
    AllHold(EmployeeCriteria(f), e)
  }

  /** `UserSpecification.withFilter`. */
  function UserCriteria(f: UserFilter): (cs: seq<Criterion>)
    ensures cs == [] <==> !Active(f.name) && !Active(f.username) && !Active(f.role)
  {
    (if Active(f.name) then [UserNameLike(Around(ToLower(f.name.value)))] else [])
    + (if Active(f.username) then [UsernameLike(Around(ToLower(f.username.value)))] else [])
    + (if Active(f.role) then [RoleIs(f.role.value)] else [])
  }

  predicate AllHoldForUser(cs: seq<Criterion>, u: User) {
    forall i :: 0 <= i < |cs| ==> HoldsForUser(cs[i], u)
  }

  lemma AllHoldForUserConcat(a: seq<Criterion>, b: seq<Criterion>, u: User)
    ensures AllHoldForUser(a + b, u) <==> AllHoldForUser(a, u) && AllHoldForUser(b, u)
  {
    assert forall i :: 0 <= i < |a| ==> (a + b)[i] == a[i];
    assert forall i :: 0 <= i < |b| ==> (a + b)[|a| + i] == b[i];
  }

  predicate UserMatches(f: UserFilter, u: User) {
    AllHoldForUser(UserCriteria(f), u)
  }

  /** Case-insensitive containment, ASCII only. */
  predicate ContainsIgnoringCase(s: string, q: string) {
    Contains(ToLower(s), ToLower(q))
  }

  /** A query the database reads literally. */
  predicate Literal(v: Option<string>) {
    v.None? || NoWildcards(ToLower(v.value))
  }

  /**
   * The employee filter stated field by field: a blank or null string
   * criterion is ignored, the name matches first or last name, email and
   * position ignore case, phone does not, the bounds are inclusive, and a
   * null column fails any criterion on it.
   */
  predicate EmployeeSelected(f: EmployeeFilter, e: Employee) {
    StringsSelected(f, e) && BoundsSelected(f, e)
  }

  predicate StringsSelected(f: EmployeeFilter, e: Employee) {
    && (Active(f.name) ==> ContainsIgnoringCase(e.firstName, f.name.value) || ContainsIgnoringCase(e.lastName, f.name.value))
    && (Active(f.email) ==> ContainsIgnoringCase(e.email, f.email.value))
    && (Active(f.position) ==> e.position.Some? && ContainsIgnoringCase(e.position.value, f.position.value))
    && (Active(f.phone) ==> e.phone.Some? && Contains(e.phone.value, f.phone.value))
  }

  predicate BoundsSelected(f: EmployeeFilter, e: Employee) {
    && (f.minSalary.Some? ==> e.salary.Some? && f.minSalary.value <= e.salary.value)
    && (f.maxSalary.Some? ==> e.salary.Some? && e.salary.value <= f.maxSalary.value)
    && (f.startWorkDateFrom.Some? ==> f.startWorkDateFrom.value <= e.startWorkDate)
    && (f.startWorkDateTo.Some? ==> e.startWorkDate <= f.startWorkDateTo.value)
  }

  /** The user filter field by field; the role must be equal, case and all. */
  predicate UserSelected(f: UserFilter, u: User) {
    && (Active(f.name) ==> u.name.Some? && ContainsIgnoringCase(u.name.value, f.name.value))
    && (Active(f.username) ==> ContainsIgnoringCase(u.username, f.username.value))
    && (Active(f.role) ==> u.role == f.role.value)
  }

  /** A filter with every criterion off selects every employee. */
  lemma EmptyEmployeeFilterSelectsAll(e: Employee)
    ensures EmployeeMatches(EmployeeFilter(None, None, None, None, None, None, None, None), e)
  {
  }

  /** A filter with every criterion off selects every user. */
  lemma EmptyUserFilterSelectsAll(u: User)
    ensures UserMatches(UserFilter(None, None, None), u)
  {
  }

  /** Blank criteria are ignored: they add nothing to the list. */
  lemma BlankIgnored(f: EmployeeFilter, blank: string)
    requires IsBlank(blank)
    ensures EmployeeCriteria(f.(name := Some(blank), email := Some(blank), position := Some(blank), phone := Some(blank)))
      == EmployeeCriteria(f.(name := None, email := None, position := None, phone := None))
  {
  }

  /** A conjunction over a concatenation is the conjunction of the parts. */
  lemma AllHoldConcat(a: seq<Criterion>, b: seq<Criterion>, e: Employee)
    ensures AllHold(a + b, e) <==> AllHold(a, e) && AllHold(b, e)
  {
    assert forall i :: 0 <= i < |a| ==> (a + b)[i] == a[i];
    assert forall i :: 0 <= i < |b| ==> (a + b)[|a| + i] == b[i];
  }

  lemma AllHoldSingle(c: Criterion, e: Employee)
    ensures AllHold([c], e) <==> HoldsFor(c, e)
  {
    assert [c][0] == c;
  }

  /** Lowering commutes with containment of an already-lowered query. */
  lemma LowerLike(s: string, q: string)
    requires NoWildcards(ToLower(q))
    ensures Like(ToLower(s), Around(ToLower(q))) <==> ContainsIgnoringCase(s, q)
  {
    AroundIsContains(ToLower(s), ToLower(q));
  }

  /**
   * For queries without `%` or `_`, the criteria list selects exactly the
   * employees the field-by-field description selects.
   */
  lemma EmployeeCriteriaMeaning(f: EmployeeFilter, e: Employee)
    requires Literal(f.name) && Literal(f.email) && Literal(f.position) && (f.phone.None? || NoWildcards(f.phone.value))
    ensures EmployeeMatches(f, e) <==> EmployeeSelected(f, e)
  {
    AllHoldConcat(StringCriteria(f), BoundCriteria(f), e);
    StringCriteriaMeaning(f, e);
    BoundCriteriaMeaning(f, e);
  }

  lemma StringCriteriaMeaning(f: EmployeeFilter, e: Employee)
    requires Literal(f.name) && Literal(f.email) && Literal(f.position) && (f.phone.None? || NoWildcards(f.phone.value))
    ensures AllHold(StringCriteria(f), e) <==> StringsSelected(f, e)
  {
    var c1 := (if Active(f.name) then [FirstOrLastNameLike(Around(ToLower(f.name.value)))] else []);
    var c2 := (if Active(f.email) then [EmailLike(Around(ToLower(f.email.value)))] else []);
    var c3 := (if Active(f.position) then [PositionLike(Around(ToLower(f.position.value)))] else []);
    var c4 := (if Active(f.phone) then [PhoneLike(Around(f.phone.value))] else []);
    AllHoldConcat(c1 + c2 + c3, c4, e);
    AllHoldConcat(c1 + c2, c3, e);
    AllHoldConcat(c1, c2, e);
    if Active(f.name) {
      AllHoldSingle(c1[0], e);
      LowerLike(e.firstName, f.name.value);
      LowerLike(e.lastName, f.name.value);
    }
    if Active(f.email) {
      AllHoldSingle(c2[0], e);
      LowerLike(e.email, f.email.value);
    }
    if Active(f.position) {
      AllHoldSingle(c3[0], e);
      if e.position.Some? {
        LowerLike(e.position.value, f.position.value);
      }
    }
    if Active(f.phone) {
      AllHoldSingle(c4[0], e);
      if e.phone.Some? {
        AroundIsContains(e.phone.value, f.phone.value);
      }
    }
  }

  lemma BoundCriteriaMeaning(f: EmployeeFilter, e: Employee)
    ensures AllHold(BoundCriteria(f), e) <==> BoundsSelected(f, e)
  {
    var c5 := (if f.minSalary.Some? then [SalaryAtLeast(f.minSalary.value)] else []);
    var c6 := (if f.maxSalary.Some? then [SalaryAtMost(f.maxSalary.value)] else []);
    var c7 := (if f.startWorkDateFrom.Some? then [StartsOnOrAfter(f.startWorkDateFrom.value)] else []);
    var c8 := (if f.startWorkDateTo.Some? then [StartsOnOrBefore(f.startWorkDateTo.value)] else []);
    AllHoldConcat(c5 + c6 + c7, c8, e);
    AllHoldConcat(c5 + c6, c7, e);
    AllHoldConcat(c5, c6, e);
    if f.minSalary.Some? { AllHoldSingle(c5[0], e); }
    if f.maxSalary.Some? { AllHoldSingle(c6[0], e); }
    if f.startWorkDateFrom.Some? { AllHoldSingle(c7[0], e); }
    if f.startWorkDateTo.Some? { AllHoldSingle(c8[0], e); }
  }

  /**
   * For queries without `%` or `_`, the user criteria select exactly the
   * users the field-by-field description selects.
   */
  lemma UserCriteriaMeaning(f: UserFilter, u: User)
    requires Literal(f.name) && Literal(f.username)
    ensures UserMatches(f, u) <==> UserSelected(f, u)
  {
    var c1 := (if Active(f.name) then [UserNameLike(Around(ToLower(f.name.value)))] else []);
    var c2 := (if Active(f.username) then [UsernameLike(Around(ToLower(f.username.value)))] else []);
    var c3 := (if Active(f.role) then [RoleIs(f.role.value)] else []);
    AllHoldForUserConcat(c1 + c2, c3, u);
    AllHoldForUserConcat(c1, c2, u);
    if Active(f.name) {
      assert AllHoldForUser(c1, u) <==> HoldsForUser(c1[0], u);
      if u.name.Some? {
        LowerLike(u.name.value, f.name.value);
      }
    }
    if Active(f.username) {
      assert AllHoldForUser(c2, u) <==> HoldsForUser(c2[0], u);
      LowerLike(u.username, f.username.value);
    }
    if Active(f.role) {
      assert AllHoldForUser(c3, u) <==> HoldsForUser(c3[0], u);
    }
  }
}

=== FILE: jwt_authentication_filter.dfy ===
/**
 * The per-request gate. A pure function from the request's cookies, the user
 * store and the clock to the decision the filter takes: let the request
 * through (authenticated or not, possibly with a new access-token cookie) or
 * answer 401 itself. The gate never writes the store.
 */
module JwtAuthenticationFilter {
  import opened Outcomes
  import opened Text
  import opened JwtUtil
  import opened Users

  const AccessCookie := "accessToken"
  const RefreshCookie := "refreshToken"
  const AccessCookieMaxAge: int := 30 * 60
  const Unauthorized: int := 401

  /** A cookie as the request carries it. */
  datatype Cookie = Cookie(name: string, value: Token)

  /** A `Set-Cookie` the response carries; a null value with max-age 0 deletes the cookie. */
  datatype SetCookie = SetCookie(name: string, value: Option<Token>, maxAge: int, path: string, httpOnly: bool, secure: bool)

  /**
   * `Proceed`: the chain continues, with the identity put in the security
   * context (if any) and the cookies written. `Reject`: the chain stops and the
   * response is the JSON error body with this status.
   */
  datatype FilterResult =
    | Proceed(identity: Option<Identity>, setCookies: seq<SetCookie>)
    | Reject(status: int, error: string, message: string, setCookies: seq<SetCookie>)

  /** The two token slots the cookie scan fills. */
  datatype Slots = Slots(access: Option<Token>, refresh: Option<Token>)

  /** The value of the last cookie called `name`, if any. */
  function LastNamed(cookies: seq<Cookie>, name: string): (r: Option<Token>)
    ensures r.None? <==> forall i :: 0 <= i < |cookies| ==> cookies[i].name != name
    ensures r.Some? ==>
      exists i :: 0 <= i < |cookies| && cookies[i] == Cookie(name, r.value)
        && forall j :: i < j < |cookies| ==> cookies[j].name != name
  {
    if cookies == [] then None
    else
      var later := LastNamed(cookies[1..], name);
      if later.Some? then
        assert forall j :: 0 <= j < |cookies| - 1 ==> cookies[1..][j] == cookies[j + 1];
        later
      else if cookies[0].name == name then Some(cookies[0].value)
      else None
  }

  /** The scan loop: each cookie overwrites the slot its name selects. */
  function ScanFrom(cookies: seq<Cookie>, acc: Slots): Slots {
    if cookies == [] then acc
    else
      var c := cookies[0];
      var acc' :=
        if c.name == AccessCookie then acc.(access := Some(c.value))
        else if c.name == RefreshCookie then acc.(refresh := Some(c.value))
        else acc;
      ScanFrom(cookies[1..], acc')
  }

  function ScanCookies(cookies: seq<Cookie>): Slots {
    ScanFrom(cookies, Slots(None, None))
  }

  /** A slot keeps its earlier value only when no later cookie has its name. */
  lemma {:induction false} ScanFromKeepsLast(cookies: seq<Cookie>, acc: Slots)
    ensures ScanFrom(cookies, acc).access ==
      (if LastNamed(cookies, AccessCookie).Some? then LastNamed(cookies, AccessCookie) else acc.access)
    ensures ScanFrom(cookies, acc).refresh ==
      (if LastNamed(cookies, RefreshCookie).Some? then LastNamed(cookies, RefreshCookie) else acc.refresh)
    decreases |cookies|
  {
    if cookies != [] {
      var c := cookies[0];
      var acc' :=
        if c.name == AccessCookie then acc.(access := Some(c.value))
        else if c.name == RefreshCookie then acc.(refresh := Some(c.value))
        else acc;
      ScanFromKeepsLast(cookies[1..], acc');
    }
  }

  /**
   * The scan keeps the last `accessToken` and the last `refreshToken` cookie
   * and ignores every other name; without cookies both slots are empty.
   */
  lemma ScanKeepsLast(cookies: seq<Cookie>)
    ensures ScanCookies(cookies) == Slots(LastNamed(cookies, AccessCookie), LastNamed(cookies, RefreshCookie))
    ensures cookies == [] ==> ScanCookies(cookies) == Slots(None, None)
  {
    ScanFromKeepsLast(cookies, Slots(None, None));
  }

  /** `setAuthentication`: a null authentication or a thrown exception leaves the request anonymous. */
  function SetAuthentication(t: Token, now: Millis): (r: Option<Identity>)
    ensures r.Some? <==> Acceptable(t, now) && HasText(t.role)
    ensures r.Some? ==> r.value == Identity(t.sub, [t.role])
  {
    match GetAuthentication(t, now)
    case Returns(Some(identity)) => Some(identity)
    case Returns(None) => None
    case Throws(_) => None
  }

  /** The two deleting cookies `clearAuthCookies` writes. */
  function ClearAuthCookies(): seq<SetCookie> {
    [SetCookie(AccessCookie, None, 0, "/", false, false), SetCookie(RefreshCookie, None, 0, "/", false, false)]
  }

  /** The cookie carrying a newly issued access token. */
  function NewAccessCookie(t: Token): SetCookie {
    SetCookie(AccessCookie, Some(t), AccessCookieMaxAge, "/", true, true)
  }

  /** `sendErrorResponse(response, message)`. */
  function ErrorResponse(message: string, setCookies: seq<SetCookie>): FilterResult {
    Reject(Unauthorized, "Unauthorized", message, setCookies)
  }

  /**
   * The refresh branch, entered with an unusable access token and a refresh
   * cookie: any failure inside it clears both cookies; only the stored token
   * of the sole user of its subject earns a new access cookie.
   */
  function TryRefresh(rt: Token, s: UserStore, now: Millis): (r: FilterResult)
    ensures r.Reject? ==> r == ErrorResponse("Authentication failed", ClearAuthCookies())
    ensures r.Proceed? && r.setCookies == [] ==> r.identity.None?
    ensures r.Proceed? && r.setCookies != [] ==>
      exists id ::
        && Acceptable(rt, now) && SoleUsername(s, id, rt.sub) && s.rows[id].refreshToken == Some(rt)
        && r.setCookies == [NewAccessCookie(GenerateAccessToken(rt.sub, s.rows[id].role, now))]
        && r.identity == SetAuthentication(GenerateAccessToken(rt.sub, s.rows[id].role, now), now)
  {
    match ValidateJwtToken(rt, now)
    case Throws(_) => ErrorResponse("Authentication failed", ClearAuthCookies())
    case Returns(false) => Proceed(None, [])
    case Returns(true) =>
      match GetUsernameFromJwt(rt, now)
      case Throws(_) => ErrorResponse("Authentication failed", ClearAuthCookies())
      case Returns(username) =>
        match FindByUsername(s, username)
        case Throws(_) => ErrorResponse("Authentication failed", ClearAuthCookies())
        case Returns(None) => ErrorResponse("Authentication failed", ClearAuthCookies())
        case Returns(Some(id)) =>
          if s.rows[id].refreshToken == Some(rt) then
            var renewed := GenerateAccessToken(username, s.rows[id].role, now);
            Proceed(SetAuthentication(renewed, now), [NewAccessCookie(renewed)])
          else Proceed(None, [])
  }

  /** `doFilterInternal`. */
  function DoFilterInternal(cookies: seq<Cookie>, s: UserStore, now: Millis): (r: FilterResult)
    ensures forall c :: c in r.setCookies && c.name == RefreshCookie ==> c.value.None?
    ensures r.Reject? ==> r.status == Unauthorized && r.error == "Unauthorized" && r.message == "Authentication failed"
    ensures r.Reject? && r.setCookies != [] ==> r.setCookies == ClearAuthCookies()
    ensures r.Proceed? && r.setCookies == [] && r.identity.Some? ==>
      && LastNamed(cookies, AccessCookie).Some?
      && Acceptable(LastNamed(cookies, AccessCookie).value, now)
      && r.identity == SetAuthentication(LastNamed(cookies, AccessCookie).value, now)
    ensures r.Proceed? && r.setCookies != [] ==>
      && LastNamed(cookies, AccessCookie).Some?
      && !Acceptable(LastNamed(cookies, AccessCookie).value, now)
      && LastNamed(cookies, RefreshCookie).Some?
      && var rt := LastNamed(cookies, RefreshCookie).value;
         exists id ::
           && Acceptable(rt, now) && SoleUsername(s, id, rt.sub) && s.rows[id].refreshToken == Some(rt)
           && r.setCookies == [NewAccessCookie(GenerateAccessToken(rt.sub, s.rows[id].role, now))]
           && r.identity == SetAuthentication(GenerateAccessToken(rt.sub, s.rows[id].role, now), now)
  {
    ScanKeepsLast(cookies);
    var slots := ScanCookies(cookies);
    match slots.access
    case None => Proceed(None, [])
    case Some(at) =>
      match ValidateJwtToken(at, now)
      case Throws(_) => ErrorResponse("Authentication failed", [])
      case Returns(true) => Proceed(SetAuthentication(at, now), [])
      case Returns(false) =>
        match slots.refresh
        case None => Proceed(None, [])
        case Some(rt) => TryRefresh(rt, s, now)
  }

  // ---------------------------------------------------------------------------
  // The decision procedure, case by case

  /** No access cookie: anonymous, nothing written, and the store is not consulted. */
  lemma NoAccessTokenIsAnonymous(cookies: seq<Cookie>, s1: UserStore, s2: UserStore, now: Millis)
    requires forall i :: 0 <= i < |cookies| ==> cookies[i].name != AccessCookie
    ensures DoFilterInternal(cookies, s1, now) == Proceed(None, [])
    ensures DoFilterInternal(cookies, s1, now) == DoFilterInternal(cookies, s2, now)
  {
    ScanKeepsLast(cookies);
  }

  /**
   * A valid access cookie authenticates as its subject with its role claim;
   * the refresh cookie and the store are never consulted.
   */
  lemma ValidAccessTokenAuthenticates(cookies: seq<Cookie>, s1: UserStore, s2: UserStore, now: Millis)
    requires LastNamed(cookies, AccessCookie).Some?
    requires Acceptable(LastNamed(cookies, AccessCookie).value, now)
    ensures var at := LastNamed(cookies, AccessCookie).value;
      DoFilterInternal(cookies, s1, now) ==
        Proceed(if HasText(at.role) then Some(Identity(at.sub, [at.role])) else None, [])
    ensures DoFilterInternal(cookies, s1, now) == DoFilterInternal(cookies, s2, now)
  {
    ScanKeepsLast(cookies);
  }

  /** An unusable access cookie without a refresh cookie: anonymous, no error, no cookies. */
  lemma InvalidAccessWithoutRefreshIsAnonymous(cookies: seq<Cookie>, s: UserStore, now: Millis)
    requires LastNamed(cookies, AccessCookie).Some?
    requires var at := LastNamed(cookies, AccessCookie).value; !Acceptable(at, now) && !BlankToken(at)
    requires LastNamed(cookies, RefreshCookie).None?
    ensures DoFilterInternal(cookies, s, now) == Proceed(None, [])
  {
    ScanKeepsLast(cookies);
  }

  /**
   * A blank access cookie makes the parser throw outside the refresh block:
   * 401 "Authentication failed", and the cookies are NOT cleared.
   */
  lemma EmptyAccessTokenRejectsWithoutClearing(cookies: seq<Cookie>, s: UserStore, now: Millis)
    requires LastNamed(cookies, AccessCookie).Some? && BlankToken(LastNamed(cookies, AccessCookie).value)
    ensures DoFilterInternal(cookies, s, now) == Reject(401, "Unauthorized", "Authentication failed", [])
  {
    ScanKeepsLast(cookies);
  }

  /**
   * The silent upgrade: unusable access token, valid refresh token whose
   * subject is the sole user of that name and whose stored token is the one
   * presented. A new access token for that user with the STORED role is set as
   * a cookie (HttpOnly, Secure, path "/", max-age 1800) and authenticates the
   * request.
   */
  lemma SilentUpgrade(cookies: seq<Cookie>, s: UserStore, now: Millis, id: int)
    requires LastNamed(cookies, AccessCookie).Some?
    requires var at := LastNamed(cookies, AccessCookie).value; !Acceptable(at, now) && !BlankToken(at)
    requires LastNamed(cookies, RefreshCookie).Some?
    requires var rt := LastNamed(cookies, RefreshCookie).value;
      Acceptable(rt, now) && SoleUsername(s, id, rt.sub) && s.rows[id].refreshToken == Some(rt)
    ensures var rt := LastNamed(cookies, RefreshCookie).value;
            var renewed := GenerateAccessToken(rt.sub, s.rows[id].role, now);
      && DoFilterInternal(cookies, s, now) ==
           Proceed(if HasText(s.rows[id].role) then Some(Identity(rt.sub, [s.rows[id].role])) else None,
                   [SetCookie("accessToken", Some(renewed), 1800, "/", true, true)])
      && GetUsernameFromJwt(renewed, now) == Returns(rt.sub)
      && GetRoleFromJwt(renewed, now) == Returns(s.rows[id].role)
  {
    ScanKeepsLast(cookies);
  }

  /**
   * A refresh token that fails validation, or that differs from the stored
   * one, does not reject: the request goes on anonymous with no cookies.
   */
  lemma BadRefreshFallsThroughToAnonymous(cookies: seq<Cookie>, s: UserStore, now: Millis)
    requires LastNamed(cookies, AccessCookie).Some?
    requires var at := LastNamed(cookies, AccessCookie).value; !Acceptable(at, now) && !BlankToken(at)
    requires LastNamed(cookies, RefreshCookie).Some?
    requires var rt := LastNamed(cookies, RefreshCookie).value;
      || (!Acceptable(rt, now) && !BlankToken(rt))
      || (Acceptable(rt, now) && exists id :: SoleUsername(s, id, rt.sub) && s.rows[id].refreshToken != Some(rt))
    ensures DoFilterInternal(cookies, s, now) == Proceed(None, [])
  {
    ScanKeepsLast(cookies);
  }

  /**
   * A valid refresh token whose subject has no user row (or several) is the
   * one failure inside the refresh block: both cookies are cleared and the
   * answer is 401 "Authentication failed"; the chain does not continue.
   */
  lemma UnknownRefreshSubjectRejects(cookies: seq<Cookie>, s: UserStore, now: Millis)
    requires LastNamed(cookies, AccessCookie).Some?
    requires var at := LastNamed(cookies, AccessCookie).value; !Acceptable(at, now) && !BlankToken(at)
    requires LastNamed(cookies, RefreshCookie).Some?
    requires var rt := LastNamed(cookies, RefreshCookie).value;
      Acceptable(rt, now) && forall id :: !SoleUsername(s, id, rt.sub)
    ensures DoFilterInternal(cookies, s, now) ==
      Reject(401, "Unauthorized", "Authentication failed",
             [SetCookie("accessToken", None, 0, "/", false, false), SetCookie("refreshToken", None, 0, "/", false, false)])
  {
    ScanKeepsLast(cookies);
  }

  /**
   * A blank refresh cookie next to an unusable access cookie makes the
   * parser throw inside the refresh block: both cookies are cleared and the
   * answer is 401 "Authentication failed".
   */
  lemma BlankRefreshTokenRejectsAndClears(cookies: seq<Cookie>, s: UserStore, now: Millis)
    requires LastNamed(cookies, AccessCookie).Some?
    requires var at := LastNamed(cookies, AccessCookie).value; !Acceptable(at, now) && !BlankToken(at)
    requires LastNamed(cookies, RefreshCookie).Some? && BlankToken(LastNamed(cookies, RefreshCookie).value)
    ensures DoFilterInternal(cookies, s, now) == Reject(401, "Unauthorized", "Authentication failed", ClearAuthCookies())
  {
    ScanKeepsLast(cookies);
  }

  /**
   * A refresh token presented in the access slot is accepted as an access
   * token for its whole seven-day life: the kinds differ only in expiry.
   */
  lemma RefreshTokenAcceptedInAccessSlot(username: string, role: string, issued: Millis, now: Millis, s: UserStore)
    requires issued - issued % 1000 + AccessTokenExpirationMs < now <= issued - issued % 1000 + RefreshTokenExpirationMs
    requires HasText(role)
    ensures var rt := GenerateRefreshToken(username, role, issued);
      DoFilterInternal([Cookie(AccessCookie, rt)], s, now) == Proceed(Some(Identity(username, [role])), [])
    ensures !Acceptable(GenerateAccessToken(username, role, issued), now)
  {
    var cookies := [Cookie(AccessCookie, GenerateRefreshToken(username, role, issued))];
    ScanKeepsLast(cookies);
  }
}

=== FILE: jwt_util.dfy ===
/**
 * The token codec. A token is the JWS compact serialization of the claims
 * `sub` (RFC 7519 section 4.1.2), `role`, `iat` (section 4.1.6) and `exp`
 * (section 4.1.4). NumericDate values have one-second resolution (RFC 7519
 * section 2). The HMAC signature (RFC 7518 section 3.2) is reduced to whether
 * the token was signed with the process-wide key.
 */
module JwtUtil {
  import opened Outcomes
  import opened Text

  /** Wall-clock time in milliseconds since the epoch. */
  type Millis = nat

  const AccessTokenExpirationMs: nat := 15 * 60 * 1000
  const RefreshTokenExpirationMs: nat := 7 * 24 * 60 * 60 * 1000

  /**
   * A token string. Equal strings are equal values: `Signed` holds the decoded
   * claims (`iat`, `exp` in seconds), `Malformed` any text that does not parse.
   */
  datatype Token =
    | Signed(sub: string, role: string, iat: nat, exp: nat, keyOk: bool)
    | Malformed(text: string)

  /** What the authenticated principal carries: its name and its authorities. */
  datatype Identity = Identity(principal: string, authorities: seq<string>)

  /** The result of `parseSignedClaims`, before any caller catches anything. */
  datatype Parsed =
    | Claims(sub: string, role: string)
    | Expired
    | BadJwt
    | EmptyInput

  /** A `java.util.Date` truncated to a NumericDate. */
  function Seconds(t: Millis): nat {
    t / 1000
  }

  /** The last instant at which a token is still accepted. */
  function ExpiresAtMillis(t: Token): Millis
    requires t.Signed?
  {
    t.exp * 1000
  }

  function Generate(username: string, role: string, now: Millis, ttl: nat): Token {
    Signed(username, role, Seconds(now), Seconds(now + ttl), true)
  }

  function GenerateAccessToken(username: string, role: string, now: Millis): Token {
    Generate(username, role, now, AccessTokenExpirationMs)
  }

  function GenerateRefreshToken(username: string, role: string, now: Millis): Token {
    Generate(username, role, now, RefreshTokenExpirationMs)
  }

  /**
   * A token string with no text: empty or whitespace only. The parser refuses
   * it with `IllegalArgumentException` before looking at it.
   */
  predicate BlankToken(t: Token) {
    t.Malformed? && !HasText(t.text)
  }

  /** Signature first, then expiry; a blank string is refused before parsing. */
  function Parse(t: Token, now: Millis): (p: Parsed)
    ensures p.Claims? <==> t.Signed? && t.keyOk && now <= ExpiresAtMillis(t)
    ensures p.Claims? ==> p.sub == t.sub && p.role == t.role
    ensures p == EmptyInput <==> BlankToken(t)
    ensures p == BadJwt <==> (t.Malformed? && HasText(t.text)) || (t.Signed? && !t.keyOk)
    ensures p == Expired <==> t.Signed? && t.keyOk && now > ExpiresAtMillis(t)
  {
    match t
    case Malformed(text) => if !HasText(text) then EmptyInput else BadJwt
    case Signed(sub, role, _, exp, keyOk) =>
      if !keyOk then BadJwt
      else if now > exp * 1000 then Expired
      else Claims(sub, role)
  }

  /** A well-signed token that has not expired at `now`. */
  predicate Acceptable(t: Token, now: Millis) {
    t.Signed? && t.keyOk && now <= ExpiresAtMillis(t)
  }

  /**
   * `validateJwtToken`: true for an acceptable token, false (no exception) for
   * an expired, badly signed or malformed one; refusing a blank string is not
   * a `JwtException`, so its `IllegalArgumentException` escapes.
   */
  function ValidateJwtToken(t: Token, now: Millis): (r: Outcome<bool>)
    ensures r == Returns(true) <==> Acceptable(t, now)
    ensures r == Returns(false) <==> !Acceptable(t, now) && !BlankToken(t)
    ensures r.Throws? <==> BlankToken(t)
    ensures r.Throws? ==> r.exception == IllegalArgumentException
  {
    match Parse(t, now)
    case Claims(_, _) => Returns(true)
    case Expired => Returns(false)
    case BadJwt => Returns(false)
    case EmptyInput => Throws(IllegalArgumentException)
  }

  function ParseFailure(p: Parsed): Exception
    requires !p.Claims?
  {
    match p
    case Expired => ExpiredJwtException
    case BadJwt => JwtException
    case EmptyInput => IllegalArgumentException
  }

  /** `getUsernameFromJwt`: the subject, or the parser's exception. */
  function GetUsernameFromJwt(t: Token, now: Millis): (r: Outcome<string>)
    ensures r.Returns? <==> Acceptable(t, now)
    ensures r.Returns? ==> r.value == t.sub
    ensures r == Throws(ExpiredJwtException) <==> t.Signed? && t.keyOk && now > ExpiresAtMillis(t)
  {
    var p := Parse(t, now);
    if p.Claims? then Returns(p.sub) else Throws(ParseFailure(p))
  }

  /** `getRoleFromJwt`: the `role` claim, or the parser's exception. */
  function GetRoleFromJwt(t: Token, now: Millis): (r: Outcome<string>)
    ensures r.Returns? <==> Acceptable(t, now)
    ensures r.Returns? ==> r.value == t.role
  {
    var p := Parse(t, now);
    if p.Claims? then Returns(p.role) else Throws(ParseFailure(p))
  }

  /**
   * `getAuthentication`: principal = subject and a single authority equal to
   * the role claim; null for an expired token. A role without text makes the
   * `SimpleGrantedAuthority` constructor throw.
   */
  function GetAuthentication(t: Token, now: Millis): (r: Outcome<Option<Identity>>)
    ensures Acceptable(t, now) && HasText(t.role) ==> r == Returns(Some(Identity(t.sub, [t.role])))
    ensures Acceptable(t, now) && !HasText(t.role) ==> r == Throws(IllegalArgumentException)
    ensures t.Signed? && t.keyOk && now > ExpiresAtMillis(t) ==> r == Returns(None)
    ensures !t.Signed? || !t.keyOk ==> r.Throws?
  {
    match Parse(t, now)
    case Expired => Returns(None)
    case BadJwt => Throws(JwtException)
    case EmptyInput => Throws(IllegalArgumentException)
    case Claims(sub, role) =>
      if !HasText(role) then Throws(IllegalArgumentException)
      else Returns(Some(Identity(sub, [role])))
  }

  /**
   * A role of one em space (U+2003) survives `trim`, so it is not blank to
   * bean validation, yet it has no text: the authority constructor refuses it.
   */
  lemma EmSpaceRoleHasNoAuthority(t: Token, now: Millis)
    requires Acceptable(t, now) && t.role == "\U{2003}"
    ensures !IsBlank(t.role)
    ensures GetAuthentication(t, now) == Throws(IllegalArgumentException)
  {
    assert t.role[0] == '\U{2003}';
  }

  // ---------------------------------------------------------------------------
  // Properties of issued tokens

  /** Both kinds of token carry exactly the claims they were issued with. */
  lemma GeneratedClaims(username: string, role: string, now: Millis)
    ensures var a := GenerateAccessToken(username, role, now);
      a.Signed? && a.keyOk && a.sub == username && a.role == role && a.iat == Seconds(now)
    ensures var r := GenerateRefreshToken(username, role, now);
      r.Signed? && r.keyOk && r.sub == username && r.role == role && r.iat == Seconds(now)
  {
  }

  /**
   * An access token is accepted exactly up to 900000 ms after its issue
   * second: the truncation to whole seconds can only shorten its life.
   */
  lemma AccessTokenLifetime(username: string, role: string, issued: Millis, now: Millis)
    ensures ValidateJwtToken(GenerateAccessToken(username, role, issued), now) == Returns(true)
      <==> now <= issued - issued % 1000 + 900000
  {
  }

  /** A refresh token is accepted exactly up to 604800000 ms after its issue second. */
  lemma RefreshTokenLifetime(username: string, role: string, issued: Millis, now: Millis)
    ensures ValidateJwtToken(GenerateRefreshToken(username, role, issued), now) == Returns(true)
      <==> now <= issued - issued % 1000 + 604800000
  {
  }

  /** Subject and role read back from a token that is still acceptable. */
  lemma ClaimsRoundTrip(username: string, role: string, issued: Millis, now: Millis, refresh: bool)
    requires now <= issued - issued % 1000 + (if refresh then RefreshTokenExpirationMs else AccessTokenExpirationMs)
    ensures var t := if refresh then GenerateRefreshToken(username, role, issued)
                     else GenerateAccessToken(username, role, issued);
      GetUsernameFromJwt(t, now) == Returns(username) && GetRoleFromJwt(t, now) == Returns(role)
  {
  }

  /**
   * Two tokens with the same claims issued within the same second are the
   * same string; issued in different seconds they differ.
   */
  lemma SameSecondSameToken(username: string, role: string, t1: Millis, t2: Millis)
    ensures GenerateAccessToken(username, role, t1) == GenerateAccessToken(username, role, t2)
      <==> Seconds(t1) == Seconds(t2)
    ensures GenerateRefreshToken(username, role, t1) == GenerateRefreshToken(username, role, t2)
      <==> Seconds(t1) == Seconds(t2)
  {
    SecondsShift(t1, 900);
    SecondsShift(t2, 900);
    SecondsShift(t1, 604800);
    SecondsShift(t2, 604800);
  }

  /** Adding whole seconds moves the NumericDate by exactly that many. */
  lemma SecondsShift(t: Millis, k: nat)
    ensures Seconds(t + k * 1000) == Seconds(t) + k
  {
  }

  /**
   * Nothing but the expiry tells the two kinds apart: while the access token
   * would still be accepted, the refresh token issued at the same instant
   * validates, and authenticates, identically.
   */
  lemma KindsIndistinguishable(username: string, role: string, issued: Millis, now: Millis)
    requires now <= issued - issued % 1000 + AccessTokenExpirationMs
    ensures var a := GenerateAccessToken(username, role, issued);
            var r := GenerateRefreshToken(username, role, issued);
      && a != r
      && a.(exp := r.exp) == r
      && ValidateJwtToken(r, now) == ValidateJwtToken(a, now) == Returns(true)
      && GetAuthentication(r, now) == GetAuthentication(a, now)
  {
  }
}

=== FILE: outcomes.dfy ===
/**
 * Optional values and the Java-side outcomes of a call: either a returned
 * value or one of the exceptions the modelled code throws or lets escape.
 */
module Outcomes {

  /** A nullable Java reference. */
  datatype Option<+T> = None | Some(value: T)

  /** The exceptions that matter to the modelled code paths. */
  datatype Exception =
    | ApiException(message: string)        // the application's own exception
    | RuntimeException(message: string)    // plain RuntimeException with a message
    | IllegalArgumentException             // e.g. JJWT on a blank token, PageRequest.of on bad bounds
    | InvalidDataAccessApiUsage            // a repository call refused its argument, e.g. a null id
    | JwtException                         // malformed token or bad signature
    | ExpiredJwtException                  // well-signed token past its `exp`
    | IncorrectResultSize                  // an Optional-returning query matched several rows
    | DataIntegrityViolation               // a unique column constraint rejected a flush
    | MethodArgumentNotValid(messages: set<string>)  // bean validation refused a request body
    | AccessDenied                         // a method-level guard refused the caller

  /** What a Java call does: return a value or throw. */
  datatype Outcome<+T> = Returns(value: T) | Throws(exception: Exception)

  /** A call against a store: its outcome and the store afterwards. */
  datatype Reply<+T, +S> = Reply(outcome: Outcome<T>, state: S)
}

=== FILE: session.dfy ===
/**
 * The session protocol across calls: what the gate does with the cookie pair
 * a login handed out, before and after the access token expires, after a
 * logout, and after a rotation.
 */
module Session {
  import opened Outcomes
  import opened Text
  import opened JwtUtil
  import opened Users
  import opened AuthService
  import opened JwtAuthenticationFilter

  /** The cookies a browser sends back after a login. */
  function LoginCookies(t: Tokens): seq<Cookie> {
    [Cookie(AccessCookie, t.accessToken), Cookie(RefreshCookie, t.refreshToken)]
  }

  /** While the access token lives, the login's cookies authenticate as the user with its role. */
  lemma LoginThenAuthenticated(s: UserStore, id: int, username: string, password: string, t: Millis, later: Millis)
    requires SoleUsername(s, id, username) && Matches(password, s.rows[id].password)
    requires HasText(s.rows[id].role)
    requires t <= later <= t - t % 1000 + AccessTokenExpirationMs
    ensures var l := Login(s, username, password, t);
      && l.outcome.Returns?
      && DoFilterInternal(LoginCookies(l.outcome.value), l.state, later) ==
           Proceed(Some(Identity(username, [s.rows[id].role])), [])
  {
    var l := Login(s, username, password, t);
    var cookies := LoginCookies(l.outcome.value);
    assert LastNamed(cookies, AccessCookie) == Some(l.outcome.value.accessToken);
    ValidAccessTokenAuthenticates(cookies, l.state, l.state, later);
  }

  /**
   * Once the access token has expired but the refresh token has not, the same
   * cookies still authenticate, now through a newly issued access cookie.
   */
  lemma LoginThenSilentUpgrade(s: UserStore, id: int, username: string, password: string, t: Millis, later: Millis)
    requires SoleUsername(s, id, username) && Matches(password, s.rows[id].password)
    requires HasText(s.rows[id].role)
    requires t - t % 1000 + AccessTokenExpirationMs < later <= t - t % 1000 + RefreshTokenExpirationMs
    ensures var l := Login(s, username, password, t);
      && l.outcome.Returns?
      && DoFilterInternal(LoginCookies(l.outcome.value), l.state, later) ==
           Proceed(Some(Identity(username, [s.rows[id].role])),
                   [NewAccessCookie(GenerateAccessToken(username, s.rows[id].role, later))])
  {
    var l := Login(s, username, password, t);
    var cookies := LoginCookies(l.outcome.value);
    var rt := l.outcome.value.refreshToken;
    assert LastNamed(cookies, AccessCookie) == Some(l.outcome.value.accessToken);
    assert LastNamed(cookies, RefreshCookie) == Some(rt);
    assert SoleUsername(l.state, id, rt.sub);
    SilentUpgrade(cookies, l.state, later, id);
  }

  /**
   * After a logout the stored token is null, so the expired-access path no
   * longer upgrades: the request degrades to anonymous rather than being
   * rejected.
   */
  lemma LogoutThenAnonymous(s: UserStore, id: int, username: string, password: string, t: Millis, later: Millis)
    requires SoleUsername(s, id, username) && Matches(password, s.rows[id].password)
    requires t - t % 1000 + AccessTokenExpirationMs < later <= t - t % 1000 + RefreshTokenExpirationMs
    requires var l := Login(s, username, password, t);
      Logout(l.state, l.outcome.value.refreshToken).outcome.Returns?
    ensures var l := Login(s, username, password, t);
            var out := Logout(l.state, l.outcome.value.refreshToken);
      DoFilterInternal(LoginCookies(l.outcome.value), out.state, later) == Proceed(None, [])
  {
    var l := Login(s, username, password, t);
    var rt := l.outcome.value.refreshToken;
    var cookies := LoginCookies(l.outcome.value);
    var out := Logout(l.state, rt);
    var h :| SoleHolder(l.state, h, rt);
    assert h == id;
    assert LastNamed(cookies, AccessCookie) == Some(l.outcome.value.accessToken);
    assert LastNamed(cookies, RefreshCookie) == Some(rt);
    assert SoleUsername(out.state, id, rt.sub);
    BadRefreshFallsThroughToAnonymous(cookies, out.state, later);
  }

  /**
   * With the intended rotation, a replaced refresh token no longer upgrades an
   * expired access token for its holder: the gate falls back to anonymous.
   */
  lemma RotatedTokenNoLongerUpgrades(s: UserStore, id: int, at: Token, rt: Token, now: Millis, later: Millis)
    requires Acceptable(rt, now) && SoleHolder(s, id, rt) && SoleUsername(s, id, rt.sub)
    requires RefreshIntended(s, rt, now).outcome.value.refreshToken != rt
    requires !Acceptable(at, later) && !BlankToken(at)
    ensures var r := RefreshIntended(s, rt, now);
      DoFilterInternal([Cookie(AccessCookie, at), Cookie(RefreshCookie, rt)], r.state, later) == Proceed(None, [])
  {
    var r := RefreshIntended(s, rt, now);
    var cookies := [Cookie(AccessCookie, at), Cookie(RefreshCookie, rt)];
    assert LastNamed(cookies, AccessCookie) == Some(at);
    assert LastNamed(cookies, RefreshCookie) == Some(rt);
    if Acceptable(rt, later) {
      assert SoleUsername(r.state, id, rt.sub);
    }
    BadRefreshFallsThroughToAnonymous(cookies, r.state, later);
  }
}

=== FILE: sql_like.dfy ===
/**
 * SQL `LIKE` as the criteria API emits it: `%` matches any run of
 * characters, `_` any single character, everything else itself. The
 * filters never escape their input, so a user's `%` or `_` is a wildcard.
 */
module SqlLike {
  import opened Text

  predicate IsWildcard(c: char) {
    c == '%' || c == '_'
  }

  predicate NoWildcards(q: string) {
    forall i :: 0 <= i < |q| ==> !IsWildcard(q[i])
  }

  /** `s LIKE pattern`, by the structure of the pattern. */
  predicate Like(s: string, pattern: string)
    decreases |s| + |pattern|
  {
    if pattern == [] then s == []
    else if pattern[0] == '%' then Like(s, pattern[1..]) || (s != [] && Like(s[1..], pattern))
    else s != [] && (pattern[0] == '_' || pattern[0] == s[0]) && Like(s[1..], pattern[1..])
  }

  /** The containment pattern the filters build around a query. */
  function Around(q: string): (p: string)
    ensures |p| == |q| + 2 && p[0] == '%' && p[|p| - 1] == '%'
  {
    "%" + q + "%"
  }

  /** A lone `%` matches every string. */
  lemma {:induction false} PercentMatchesAll(s: string)
    ensures Like(s, "%")
  {
    if s != [] {
      PercentMatchesAll(s[1..]);
    }
  }

  /** `q%` with a wildcard-free `q` matches exactly the strings that start with `q`. */
  lemma {:induction false} PrefixPattern(s: string, q: string)
    requires NoWildcards(q)
    ensures Like(s, q + "%") <==> IsPrefix(q, s)
  {
    if q == [] {
      assert q + "%" == "%";
      PercentMatchesAll(s);
    } else {
      assert (q + "%")[1..] == q[1..] + "%";
      assert NoWildcards(q[1..]) by {
        forall i | 0 <= i < |q[1..]| ensures !IsWildcard(q[1..][i]) {
          assert q[1..][i] == q[i + 1];
        }
      }
      if s != [] {
        PrefixPattern(s[1..], q[1..]);
        assert IsPrefix(q, s) <==> s[0] == q[0] && IsPrefix(q[1..], s[1..]) by {
          if IsPrefix(q, s) {
            assert s[1..][..|q[1..]|] == s[..|q|][1..];
          }
          if s[0] == q[0] && IsPrefix(q[1..], s[1..]) {
            assert s[..|q|] == [s[0]] + s[1..][..|q[1..]|];
          }
        }
      }
    }
  }

  /** A leading `%` lets the rest of the pattern start at any offset. */
  lemma {:induction false} LeadingPercent(s: string, rest: string)
    ensures Like(s, "%" + rest) <==> exists i :: 0 <= i <= |s| && Like(s[i..], rest)
    decreases |s|
  {
    var p := "%" + rest;
    assert p[1..] == rest;
    assert s[0..] == s;
    if s != [] {
      LeadingPercent(s[1..], rest);
      if exists i :: 0 <= i <= |s| && Like(s[i..], rest) {
        var i :| 0 <= i <= |s| && Like(s[i..], rest);
        if i > 0 {
          assert s[1..][i - 1..] == s[i..];
        }
      }
      if exists i :: 0 <= i <= |s[1..]| && Like(s[1..][i..], rest) {
        var i :| 0 <= i <= |s[1..]| && Like(s[1..][i..], rest);
        assert s[1..][i..] == s[i + 1..];
      }
    }
  }

  /**
   * With a wildcard-free query, the filters' `%q%` pattern is substring
   * containment.
   */
  lemma AroundIsContains(s: string, q: string)
    requires NoWildcards(q)
    ensures Like(s, Around(q)) <==> Contains(s, q)
  {
    assert Around(q) == "%" + (q + "%");
    LeadingPercent(s, q + "%");
    forall i | 0 <= i <= |s|
      ensures Like(s[i..], q + "%") <==> IsPrefix(q, s[i..])
    {
      PrefixPattern(s[i..], q);
    }
  }

  /** An unescaped `_` query matches every non-empty value. */
  lemma UnderscoreMatchesAnyNonEmpty(s: string)
    requires s != []
    ensures Like(s, Around("_"))
  {
    var p := Around("_");
    assert p[1..] == "_%";
    assert "_%"[1..] == "%";
    PercentMatchesAll(s[1..]);
    assert Like(s, "_%");
  }
}

=== FILE: text.dfy ===
/**
 * Character and string helpers with the meaning Java and the database give
 * them. Case mapping is restricted to ASCII; whitespace follows
 * `Character.isWhitespace` over the whole Basic Multilingual Plane.
 */
module Text {

  predicate IsAsciiLetter(c: char) {
    'a' <= c <= 'z' || 'A' <= c <= 'Z'
  }

  predicate IsAsciiDigit(c: char) {
    '0' <= c <= '9'
  }

  /** `Character.toLowerCase` on the ASCII range; other characters are kept. */
  function LowerChar(c: char): char {
    if 'A' <= c <= 'Z' then (c as int + 32) as char else c
  }

  /** `String.toLowerCase`, ASCII only. */
  function ToLower(s: string): (r: string)
    ensures |r| == |s|
    ensures forall i :: 0 <= i < |s| ==> r[i] == LowerChar(s[i])
  {
    if s == [] then [] else [LowerChar(s[0])] + ToLower(s[1..])
  }

  /** `s.trim().isEmpty()`: `trim` strips every character up to U+0020. */
  predicate IsBlank(s: string) {
    forall i :: 0 <= i < |s| ==> s[i] <= ' '
  }

  /**
   * `Character.isWhitespace`: the Unicode space, line and paragraph
   * separators other than the no-break spaces U+00A0, U+2007 and U+202F,
   * plus the controls U+0009-U+000D and U+001C-U+001F.
   */
  predicate IsJavaWhitespace(c: char) {
    || c == ' '
    || '\t' <= c <= '\r'
    || '\U{1C}' <= c <= '\U{1F}'
    || c == '\U{1680}'
    || '\U{2000}' <= c <= '\U{2006}'
    || '\U{2008}' <= c <= '\U{200A}'
    || c == '\U{2028}' || c == '\U{2029}'
    || c == '\U{205F}' || c == '\U{3000}'
  }

  /** Spring's `StringUtils.hasText`: some character is not whitespace. */
  predicate HasText(s: string) {
    exists i :: 0 <= i < |s| && !IsJavaWhitespace(s[i])
  }

  predicate IsPrefix(p: string, s: string) {
    |p| <= |s| && s[..|p|] == p
  }

  predicate EndsWith(s: string, suffix: string) {
    |suffix| <= |s| && s[|s| - |suffix|..] == suffix
  }

  /** `s.contains(q)`: `q` occurs in `s` at some offset. */
  predicate Contains(s: string, q: string) {
    exists i :: 0 <= i <= |s| - |q| && IsPrefix(q, s[i..])
  }

  function DigitChar(d: nat): char
    requires d < 10
  {
    ('0' as int + d) as char
  }

  function DigitValue(c: char): nat
    requires IsAsciiDigit(c)
  {
    c as int - '0' as int
  }

  /** The value of a string of decimal digits. */
  function DecimalValue(s: string): nat
    requires forall i :: 0 <= i < |s| ==> IsAsciiDigit(s[i])
  {
    if s == [] then 0 else DecimalValue(s[..|s| - 1]) * 10 + DigitValue(s[|s| - 1])
  }

  /** Java's decimal rendering of a non-negative integer (`"" + n`). */
  function NatToString(n: nat): (r: string)
    ensures 1 <= |r|
    ensures forall i :: 0 <= i < |r| ==> IsAsciiDigit(r[i])
    ensures |r| > 1 ==> r[0] != '0'
  {
    if n < 10 then [DigitChar(n)] else NatToString(n / 10) + [DigitChar(n % 10)]
  }

  /** Java's decimal rendering of a `long`. */
  function IntToString(n: int): (r: string)
    ensures 1 <= |r|
    ensures n < 0 <==> r[0] == '-'
  {
    if n < 0 then "-" + NatToString(-n) else NatToString(n)
  }

  /** Reading back the digits of `NatToString(n)` gives `n`. */
  lemma {:induction false} NatToStringRoundTrip(n: nat)
    ensures DecimalValue(NatToString(n)) == n
  {
    var r := NatToString(n);
    if n >= 10 {
      NatToStringRoundTrip(n / 10);
      assert r[..|r| - 1] == NatToString(n / 10);
    }
  }

  /** Distinct numbers render as distinct strings. */
  lemma NatToStringInjective(a: nat, b: nat)
    ensures NatToString(a) == NatToString(b) ==> a == b
  {
    NatToStringRoundTrip(a);
    NatToStringRoundTrip(b);
  }
}

=== FILE: user_requests.dfy ===
/**
 * The request bodies of the user endpoints and the bean-validation
 * constraints declared on them: `@NotBlank` on every field of a create
 * request, and the password pattern `^(?=.*[A-Za-z])(?=.*\d)[A-Za-z\d]{8,}$`
 * on the create and the bulk-update request.
 */
module UserRequests {
  import opened Outcomes
  import opened Text

  /** A create request; each field is a nullable JSON string. */
  datatype CreateUserRequest = CreateUserRequest(
    name: Option<string>,
    username: Option<string>,
    password: Option<string>,
    role: Option<string>)

  /** A single update: a null field means "leave unchanged". */
  datatype UpdateUserRequest = UpdateUserRequest(
    name: Option<string>,
    username: Option<string>,
    role: Option<string>)

  /** One element of a bulk update; only the password is constrained. */
  datatype BulkUpdateUserRequest = BulkUpdateUserRequest(
    id: Option<int>,
    name: Option<string>,
    username: Option<string>,
    password: Option<string>,
    role: Option<string>)

  const NameRequired := "Name is required"
  const UsernameRequired := "Username is required"
  const PasswordRequired := "Password is required"
  const PasswordRuleMessage :=
    "Password must be at least 8 characters long and contain at least one letter and one number"
  const RoleRequired := "Role is required"

  predicate IsAsciiAlphanumeric(c: char) {
    IsAsciiLetter(c) || IsAsciiDigit(c)
  }

  /**
   * What the password pattern accepts, requirement by requirement: at least
   * eight characters, each an ASCII letter or digit, at least one of each.
   * `\d` is ASCII-only in Java without `UNICODE_CHARACTER_CLASS`, and the
   * whole input must match, so a trailing line break is refused.
   */
  predicate PasswordRule(p: string) {
    && |p| >= 8
    && (forall i :: 0 <= i < |p| ==> IsAsciiAlphanumeric(p[i]))
    && (exists i :: 0 <= i < |p| && IsAsciiLetter(p[i]))
    && (exists i :: 0 <= i < |p| && IsAsciiDigit(p[i]))
  }

  /**
   * The pattern as a single left-to-right pass: the two look-aheads become
   * "seen a letter" and "seen a digit", the character class and the `{8,}`
   * repetition become "every character so far is in the class" and a count.
   */
  method MatchPasswordPattern(p: string) returns (matched: bool)
    ensures matched <==> PasswordRule(p)
  {
    var sawLetter, sawDigit, inClass := false, false, true;
    var count := 0;
    while count < |p|
      invariant 0 <= count <= |p|
      invariant sawLetter <==> exists k :: 0 <= k < count && IsAsciiLetter(p[k])
      invariant sawDigit <==> exists k :: 0 <= k < count && IsAsciiDigit(p[k])
      invariant inClass <==> forall k :: 0 <= k < count ==> IsAsciiAlphanumeric(p[k])
    {
      var c := p[count];
      sawLetter := sawLetter || IsAsciiLetter(c);
      sawDigit := sawDigit || IsAsciiDigit(c);
      inClass := inClass && IsAsciiAlphanumeric(c);
      count := count + 1;
    }
    matched := inClass && sawLetter && sawDigit && count >= 8;
  }

  /** `@NotBlank`: present, and not only characters that `trim` removes. */
  predicate NotBlank(v: Option<string>) {
    v.Some? && !IsBlank(v.value)
  }

  /** `@Pattern` accepts a null value and checks a present one. */
  predicate PatternAccepts(v: Option<string>) {
    v.None? || PasswordRule(v.value)
  }

  /** The messages of every constraint a create request breaks. */
  function CreateUserViolations(req: CreateUserRequest): (r: set<string>)
    ensures r <= {NameRequired, UsernameRequired, PasswordRequired, PasswordRuleMessage, RoleRequired}
    ensures NameRequired in r <==> !NotBlank(req.name)
    ensures UsernameRequired in r <==> !NotBlank(req.username)
    ensures PasswordRequired in r <==> !NotBlank(req.password)
    ensures RoleRequired in r <==> !NotBlank(req.role)
    ensures PasswordRuleMessage in r <==> req.password.Some? && !PasswordRule(req.password.value)
    ensures r == {} <==>
      && req.name.Some? && req.username.Some? && req.password.Some? && req.role.Some?
      && !IsBlank(req.name.value) && !IsBlank(req.username.value) && !IsBlank(req.role.value)
      && PasswordRule(req.password.value)
  {
    (if NotBlank(req.name) then {} else {NameRequired})
    + (if NotBlank(req.username) then {} else {UsernameRequired})
    + (if NotBlank(req.password) then {} else {PasswordRequired})
    + (if PatternAccepts(req.password) then {} else {PasswordRuleMessage})
    + (if NotBlank(req.role) then {} else {RoleRequired})
  }

  /** The messages of every constraint a bulk-update element breaks. */
  function BulkUpdateViolations(req: BulkUpdateUserRequest): (r: set<string>)
    ensures r <= {PasswordRuleMessage}
    ensures r == {} <==> req.password.None? || PasswordRule(req.password.value)
  {
    if PatternAccepts(req.password) then {} else {PasswordRuleMessage}
  }

  /** `@Valid @RequestBody`: the body reaches the handler only without violations. */
  function ValidateCreateUser(req: CreateUserRequest): (r: Outcome<CreateUserRequest>)
    ensures r.Returns? <==> CreateUserViolations(req) == {}
    ensures r.Returns? ==> r.value == req && req.username.Some? && req.password.Some? && req.role.Some?
    ensures r.Throws? ==> r.exception == MethodArgumentNotValid(CreateUserViolations(req))
  {
    var v := CreateUserViolations(req);
    if v == {} then Returns(req) else Throws(MethodArgumentNotValid(v))
  }

  /** A password made only of letters is refused, whatever its length. */
  lemma LettersOnlyRefused(p: string)
    requires forall i :: 0 <= i < |p| ==> IsAsciiLetter(p[i])
    ensures !PasswordRule(p)
  {
    assert forall i :: 0 <= i < |p| ==> !IsAsciiDigit(p[i]);
  }

  /** The documented examples of the rule. */
  lemma PasswordExamples()
    ensures PasswordRule("abc12345")
    ensures !PasswordRule("abc1234")
    ensures !PasswordRule("abc 12345")
    ensures !PasswordRule("12345678")
  {
    assert IsAsciiLetter("abc12345"[0]) && IsAsciiDigit("abc12345"[3]);
    assert !IsAsciiAlphanumeric("abc 12345"[3]);
    assert forall i :: 0 <= i < 8 ==> IsAsciiDigit("12345678"[i]);
  }

  /** An empty password breaks both password constraints at once. */
  lemma EmptyPasswordTwoMessages(name: string, username: string, role: string)
    ensures var v := CreateUserViolations(CreateUserRequest(Some(name), Some(username), Some(""), Some(role)));
      PasswordRequired in v && PasswordRuleMessage in v
  {
  }

  /** A bulk element without a password is always acceptable. */
  lemma NullPasswordAccepted(id: Option<int>, name: Option<string>, username: Option<string>, role: Option<string>)
    ensures BulkUpdateViolations(BulkUpdateUserRequest(id, name, username, None, role)) == {}
  {
  }
}

=== FILE: user_service.dfy ===
/**
 * The administrator-facing user service: create, partial update, bulk update,
 * delete. The whole class is transactional, so a call that throws leaves the
 * store as it found it.
 */
module UserService {
  import opened Outcomes
  import opened Text
  import opened JwtUtil
  import opened Users
  import opened UserRequests

  const UserNotFoundPrefix := "User not found with id: "

  /** The message of the "no such user" failure, with Java's rendering of the id. */
  function NotFound(id: int): Exception {
    RuntimeException(UserNotFoundPrefix + IntToString(id))
  }

  /** A request that passed `@Valid`: the three fields `User` cannot hold as null are present. */
  predicate Bound(req: CreateUserRequest) {
    req.username.Some? && req.password.Some? && req.role.Some?
  }

  /** The unsaved entity built from a create request. */
  function NewUser(req: CreateUserRequest): (u: User)
    requires Bound(req)
    ensures u.name == req.name && u.username == req.username.value && u.role == req.role.value
    ensures Matches(req.password.value, u.password) && u.refreshToken.None?
  {
    User(0, req.name, req.username.value, Encode(req.password.value), req.role.value, None, 0)
  }

  /**
   * `createUser`: stores name, username and role verbatim and the encoded
   * password; no check that the username is free.
   */
  function CreateUser(s: UserStore, req: CreateUserRequest, now: Millis): (r: (User, UserStore))
    requires Bound(req)
    ensures r.0.id == s.nextId && r.0.createdAt == now
    ensures r.0.name == req.name && r.0.username == req.username.value && r.0.role == req.role.value
    ensures Matches(req.password.value, r.0.password) && r.0.refreshToken.None?
    ensures r.1.rows == s.rows[s.nextId := r.0] && r.1.nextId == s.nextId + 1
    ensures Valid(s) ==> Valid(r.1) && |r.1.rows| == |s.rows| + 1
  {
    var s' := Persist(s, NewUser(req), now);
    (s'.rows[s.nextId], s')
  }

  /** Two create calls with the same username both succeed: the column is not unique. */
  lemma DuplicateUsernameAccepted(s: UserStore, a: CreateUserRequest, b: CreateUserRequest, t1: Millis, t2: Millis)
    requires Valid(s) && Bound(a) && Bound(b) && a.username == b.username
    ensures var (u1, s1) := CreateUser(s, a, t1);
      var (u2, s2) := CreateUser(s1, b, t2);
      u1.id != u2.id && s2.rows[u1.id].username == s2.rows[u2.id].username
      && FindByUsername(s2, a.username.value).Throws?
  {
    var (u1, s1) := CreateUser(s, a, t1);
    var (u2, s2) := CreateUser(s1, b, t2);
    assert u1.id in s2.rows && u2.id in s2.rows;
  }

  /** The user a batch starting at id `base` puts under `id`. */
  function UserAt(us: seq<User>, base: int, id: int): User
    requires base <= id < base + |us|
  {
    us[id - base]
  }

  /** `createUsers`: `saveAll` persists each request in order under consecutive ids. */
  function CreateUsers(s: UserStore, reqs: seq<CreateUserRequest>, now: Millis): (r: (seq<User>, UserStore))
    requires forall i :: 0 <= i < |reqs| ==> Bound(reqs[i])
    ensures |r.0| == |reqs| && r.1.nextId == s.nextId + |reqs|
    ensures forall i :: 0 <= i < |reqs| ==> r.0[i] == NewUser(reqs[i]).(id := s.nextId + i, createdAt := now)
    ensures forall id :: id in r.1.rows <==> id in s.rows || s.nextId <= id < s.nextId + |reqs|
    ensures forall i :: 0 <= i < |reqs| ==> r.1.rows[s.nextId + i] == r.0[i]
    ensures forall id :: id in s.rows && id < s.nextId ==> r.1.rows[id] == s.rows[id]
    ensures Valid(s) ==> Valid(r.1)
  {
    var us := seq(|reqs|, i requires 0 <= i < |reqs| => NewUser(reqs[i]).(id := s.nextId + i, createdAt := now));
    var added := map id | s.nextId <= id < s.nextId + |reqs| :: UserAt(us, s.nextId, id);
    AppendKeepsValid(s, added, |reqs|);
    (us, UserStore(s.rows + added, s.nextId + |reqs|))
  }

  /** Rows stored under fresh consecutive ids past the counter keep the store valid. */
  lemma AppendKeepsValid(s: UserStore, added: map<int, User>, n: nat)
    requires forall id :: id in added <==> s.nextId <= id < s.nextId + n
    requires forall id :: id in added ==> added[id].id == id
    ensures Valid(s) ==> Valid(UserStore(s.rows + added, s.nextId + n))
  {
  }

  /** The fields of a single update applied to a loaded user. */
  function PatchUser(u: User, req: UpdateUserRequest): (u': User)
    ensures u'.name == (if req.name.Some? then req.name else u.name)
    ensures u'.username == (if req.username.Some? then req.username.value else u.username)
    ensures u'.role == (if req.role.Some? then req.role.value else u.role)
    ensures u'.id == u.id && u'.password == u.password
    ensures u'.refreshToken == u.refreshToken && u'.createdAt == u.createdAt
  {
    var u1 := if req.name.Some? then u.(name := req.name) else u;
    var u2 := if req.username.Some? then u1.(username := req.username.value) else u1;
    if req.role.Some? then u2.(role := req.role.value) else u2
  }

  /**
   * `updateUser`: unknown id refused; otherwise the non-null fields are
   * written over the row; password and refresh token are never touched.
   */
  function UpdateUser(s: UserStore, id: int, req: UpdateUserRequest): (r: Reply<User, UserStore>)
    ensures r.outcome.Throws? <==> id !in s.rows
    ensures r.outcome.Throws? ==> r == Reply(Throws(NotFound(id)), s)
    ensures r.outcome.Returns? ==>
      && r.outcome.value == PatchUser(s.rows[id], req)
      && r.state.rows == s.rows[id := r.outcome.value]
      && r.state.nextId == s.nextId
    ensures Valid(s) ==> Valid(r.state)
  {
    if id !in s.rows then Reply(Throws(NotFound(id)), s)
    else
      var u := PatchUser(s.rows[id], req);
      Reply(Returns(u), Merge(s, id, u))
  }

  /** A bulk element applied to a loaded user; a present password is re-encoded. */
  function PatchFromBulk(u: User, req: BulkUpdateUserRequest): (u': User)
    ensures u'.name == (if req.name.Some? then req.name else u.name)
    ensures u'.username == (if req.username.Some? then req.username.value else u.username)
    ensures u'.role == (if req.role.Some? then req.role.value else u.role)
    ensures req.password.Some? ==> Matches(req.password.value, u'.password)
    ensures req.password.None? ==> u'.password == u.password
    ensures u'.id == u.id && u'.refreshToken == u.refreshToken && u'.createdAt == u.createdAt
  {
    var u1 := PatchUser(u, UpdateUserRequest(req.name, req.username, req.role));
    if req.password.Some? then u1.(password := Encode(req.password.value)) else u1
  }

  /** Why one bulk element fails against `s`, if it does. */
  function BulkItemFailure(s: UserStore, req: BulkUpdateUserRequest): Option<Exception> {
    if req.id.None? then Some(InvalidDataAccessApiUsage)
    else if req.id.value !in s.rows then Some(NotFound(req.id.value))
    else None
  }

  /** Every element names a row of `s`. */
  predicate AllFound(s: UserStore, reqs: seq<BulkUpdateUserRequest>) {
    forall i :: 0 <= i < |reqs| ==> BulkItemFailure(s, reqs[i]).None?
  }

  /**
   * The writes of `updateUsers`, one element at a time against the rows as the
   * earlier ones left them: the final rows, or the failure of the first element
   * that names no row. A null id is refused by `findById`.
   */
  function ApplyBulk(s: UserStore, reqs: seq<BulkUpdateUserRequest>): (r: Outcome<UserStore>)
    ensures r.Returns? <==> AllFound(s, reqs)
    ensures r.Returns? ==> r.value.rows.Keys == s.rows.Keys && r.value.nextId == s.nextId
    decreases |reqs|
  {
    if reqs == [] then Returns(s)
    else if BulkItemFailure(s, reqs[0]).Some? then Throws(BulkItemFailure(s, reqs[0]).value)
    else
      var id := reqs[0].id.value;
      var s1 := Merge(s, id, PatchFromBulk(s.rows[id], reqs[0]));
      assert forall i :: 1 <= i < |reqs| ==> reqs[1..][i - 1] == reqs[i];
      assert forall i :: 0 <= i < |reqs| ==> BulkItemFailure(s1, reqs[i]) == BulkItemFailure(s, reqs[i]);
      ApplyBulk(s1, reqs[1..])
  }

  /**
   * `updateUsers`: the writes of `ApplyBulk` in one transaction, so a failure
   * rolls every earlier write back. Each element's reply is the managed entity
   * of its row, mapped once all writes are done: it shows the row as the whole
   * batch left it.
   */
  function UpdateUsers(s: UserStore, reqs: seq<BulkUpdateUserRequest>): (r: Reply<seq<User>, UserStore>)
    ensures r.outcome.Throws? ==> r.state == s
    ensures r.outcome.Returns? <==> AllFound(s, reqs)
    ensures r.outcome.Returns? ==>
      && |r.outcome.value| == |reqs|
      && r.state.rows.Keys == s.rows.Keys && r.state.nextId == s.nextId
      && forall i :: 0 <= i < |reqs| ==>
           reqs[i].id.Some? && reqs[i].id.value in r.state.rows
           && r.outcome.value[i] == r.state.rows[reqs[i].id.value]
  {
    match ApplyBulk(s, reqs)
    case Throws(e) => Reply(Throws(e), s)
    case Returns(final) =>
      Reply(Returns(seq(|reqs|, i requires 0 <= i < |reqs| => final.rows[reqs[i].id.value])), final)
  }

  /** A failed bulk update reports the first element that names no row. */
  lemma {:induction false} UpdateUsersFirstFailure(s: UserStore, reqs: seq<BulkUpdateUserRequest>)
    ensures var r := UpdateUsers(s, reqs);
      r.outcome.Throws? ==>
        exists i :: 0 <= i < |reqs| && BulkItemFailure(s, reqs[i]) == Some(r.outcome.exception)
          && forall j :: 0 <= j < i ==> BulkItemFailure(s, reqs[j]).None?
    decreases |reqs|
  {
    if reqs != [] && BulkItemFailure(s, reqs[0]).None? {
      var id := reqs[0].id.value;
      var s1 := Merge(s, id, PatchFromBulk(s.rows[id], reqs[0]));
      UpdateUsersFirstFailure(s1, reqs[1..]);
      var r1 := UpdateUsers(s1, reqs[1..]);
      if r1.outcome.Throws? {
        var i :| 0 <= i < |reqs[1..]| && BulkItemFailure(s1, reqs[1..][i]) == Some(r1.outcome.exception)
          && forall j :: 0 <= j < i ==> BulkItemFailure(s1, reqs[1..][j]).None?;
        assert BulkItemFailure(s, reqs[i + 1]) == Some(r1.outcome.exception);
        assert forall j :: 0 <= j < i + 1 ==> BulkItemFailure(s, reqs[j]).None? by {
          forall j | 0 < j < i + 1 ensures BulkItemFailure(s, reqs[j]).None? {
            assert reqs[1..][j - 1] == reqs[j];
          }
        }
      }
    }
  }

  /**
   * A successful bulk update never moves a row, never touches a refresh
   * token or a creation time, and leaves rows no element names as they were.
   */
  lemma {:induction false} UpdateUsersKeepsSessions(s: UserStore, reqs: seq<BulkUpdateUserRequest>)
    ensures var r := UpdateUsers(s, reqs);
      r.outcome.Returns? ==>
        && (forall id :: id in s.rows ==>
              && r.state.rows[id].id == s.rows[id].id
              && r.state.rows[id].refreshToken == s.rows[id].refreshToken
              && r.state.rows[id].createdAt == s.rows[id].createdAt)
        && (forall id :: id in s.rows && (forall i :: 0 <= i < |reqs| ==> reqs[i].id != Some(id)) ==>
              r.state.rows[id] == s.rows[id])
    decreases |reqs|
  {
    if reqs != [] && BulkItemFailure(s, reqs[0]).None? {
      var id := reqs[0].id.value;
      var s1 := Merge(s, id, PatchFromBulk(s.rows[id], reqs[0]));
      UpdateUsersKeepsSessions(s1, reqs[1..]);
      var r := UpdateUsers(s, reqs);
      if r.outcome.Returns? {
        forall k | k in s.rows && (forall i :: 0 <= i < |reqs| ==> reqs[i].id != Some(k))
          ensures r.state.rows[k] == s.rows[k]
        {
          assert reqs[0].id != Some(k);
          assert forall i :: 0 <= i < |reqs[1..]| ==> reqs[1..][i].id != Some(k) by {
            forall i | 0 <= i < |reqs[1..]| ensures reqs[1..][i].id != Some(k) {
              assert reqs[1..][i] == reqs[i + 1];
            }
          }
        }
      }
    }
  }

  /**
   * Updating the same user twice in one batch applies both, in order, and
   * both replies show the row after the second update.
   */
  lemma UpdateUsersInOrder(s: UserStore, id: int, first: BulkUpdateUserRequest, second: BulkUpdateUserRequest)
    requires id in s.rows && first.id == Some(id) && second.id == Some(id)
    ensures var r := UpdateUsers(s, [first, second]);
            var twice := PatchFromBulk(PatchFromBulk(s.rows[id], first), second);
      r.outcome.Returns? && r.state.rows[id] == twice && r.outcome.value == [twice, twice]
  {
    var s1 := Merge(s, id, PatchFromBulk(s.rows[id], first));
    assert [first, second][1..] == [second];
    assert [second][1..] == [];
    assert ApplyBulk(s1, [second]).value.rows[id] == PatchFromBulk(s1.rows[id], second);
  }

  /**
   * When no two elements name the same row, every named row ends as its own
   * element applied to the row as it was, and that is what the reply lists.
   */
  lemma {:induction false} UpdateUsersDistinctIds(s: UserStore, reqs: seq<BulkUpdateUserRequest>)
    requires AllFound(s, reqs)
    requires forall i, j :: 0 <= i < j < |reqs| ==> reqs[i].id != reqs[j].id
    ensures var r := UpdateUsers(s, reqs);
      && r.outcome.Returns?
      && forall i :: 0 <= i < |reqs| ==>
           && reqs[i].id.Some? && reqs[i].id.value in s.rows
           && r.outcome.value[i] == r.state.rows[reqs[i].id.value] == PatchFromBulk(s.rows[reqs[i].id.value], reqs[i])
    decreases |reqs|
  {
    if reqs != [] {
      var id := reqs[0].id.value;
      var s1 := Merge(s, id, PatchFromBulk(s.rows[id], reqs[0]));
      var tail := reqs[1..];
      assert forall i :: 0 <= i < |tail| ==> tail[i] == reqs[i + 1];
      assert forall i :: 0 <= i < |reqs| ==> BulkItemFailure(s1, reqs[i]) == BulkItemFailure(s, reqs[i]);
      assert AllFound(s1, tail);
      UpdateUsersDistinctIds(s1, tail);
      UpdateUsersKeepsSessions(s1, tail);
      var r := UpdateUsers(s, reqs);
      var r1 := UpdateUsers(s1, tail);
      assert r.state == r1.state;
      assert r.state.rows[id] == PatchFromBulk(s.rows[id], reqs[0]) by {
        assert forall i :: 0 <= i < |tail| ==> tail[i].id != Some(id);
      }
      forall i | 1 <= i < |reqs|
        ensures r.state.rows[reqs[i].id.value] == PatchFromBulk(s.rows[reqs[i].id.value], reqs[i])
      {
        assert tail[i - 1] == reqs[i];
      }
    }
  }

  /** `deleteUser`: unknown id refused; otherwise exactly that row goes. */
  function DeleteUser(s: UserStore, id: int): (r: Reply<(), UserStore>)
    ensures r.outcome.Throws? <==> id !in s.rows
    ensures r.outcome.Throws? ==> r == Reply(Throws(NotFound(id)), s)
    ensures r.outcome.Returns? ==>
      && r.state.rows.Keys == s.rows.Keys - {id}
      && (forall k :: k in r.state.rows ==> r.state.rows[k] == s.rows[k])
    ensures Valid(s) ==> Valid(r.state)
  {
    if id !in s.rows then Reply(Throws(NotFound(id)), s)
    else Reply(Returns(()), s.(rows := s.rows - {id}))
  }

  /** `deleteUsers` (`deleteAllById`): listed ids that exist go, unknown ones are skipped. */
  function DeleteUsers(s: UserStore, ids: seq<int>): (s': UserStore)
    ensures forall k :: k in s'.rows <==> k in s.rows && k !in ids
    ensures forall k :: k in s'.rows ==> s'.rows[k] == s.rows[k]
    ensures Valid(s) ==> Valid(s')
  {
    s.(rows := map k | k in s.rows && k !in ids :: s.rows[k])
  }

  /** A logged-in user edited by an administrator keeps their session. */
  lemma UpdateKeepsSession(s: UserStore, id: int, req: UpdateUserRequest, t: Token)
    requires SoleHolder(s, id, t)
    ensures SoleHolder(UpdateUser(s, id, req).state, id, t)
  {
  }

  /** Deleting a user ends every session the row held: its token has no holder. */
  lemma DeleteEndsSession(s: UserStore, id: int, t: Token)
    requires SoleHolder(s, id, t)
    ensures FindByRefreshToken(DeleteUser(s, id).state, t) == Returns(None)
  {
  }
}

=== FILE: users.dfy ===
/**
 * The `users` table: the principal record and the repository queries the
 * authentication layer and the user service run against it.
 */
module Users {
  import opened Outcomes
  import opened JwtUtil

  /** `PasswordEncoder.encode` result; salting is not modelled. */
  datatype PasswordHash = Encoded(raw: string)

  function Encode(raw: string): PasswordHash {
    Encoded(raw)
  }

  /** `PasswordEncoder.matches(raw, hash)`. */
  predicate Matches(raw: string, hash: PasswordHash) {
    hash == Encode(raw)
  }

  /**
   * A row of `users`. `name` may be null; `refreshToken` holds at most one
   * value and may be null; `createdAt` is set when the row is first persisted.
   * `username` is indexed but not unique.
   */
  datatype User = User(
    id: int,
    name: Option<string>,
    username: string,
    password: PasswordHash,
    role: string,
    refreshToken: Option<Token>,
    createdAt: Millis)

  /** The table with its identity counter (`GenerationType.IDENTITY`). */
  datatype UserStore = UserStore(rows: map<int, User>, nextId: int)

  /** Every row is stored under its own id, and the counter is past every id. */
  ghost predicate Valid(s: UserStore) {
    forall id :: id in s.rows ==> s.rows[id].id == id && id < s.nextId
  }

  /** `id` is the only row named `username`. */
  predicate SoleUsername(s: UserStore, id: int, username: string) {
    && id in s.rows
    && s.rows[id].username == username
    && forall j :: j in s.rows && s.rows[j].username == username ==> j == id
  }

  /** `id` is the only row holding `token` as its refresh token. */
  predicate SoleHolder(s: UserStore, id: int, token: Token) {
    && id in s.rows
    && s.rows[id].refreshToken == Some(token)
    && forall j :: j in s.rows && s.rows[j].refreshToken == Some(token) ==> j == id
  }

  /** The ids whose row satisfies `p`. */
  function IdsWhere(rows: map<int, User>, p: User -> bool): set<int> {
    set id | id in rows && p(rows[id])
  }

  lemma SingletonHasOneElement(ids: set<int>, a: int, b: int)
    requires |ids| == 1 && a in ids && b in ids
    ensures a == b
  {
    if a != b {
      assert {a, b} <= ids;
      assert |{a, b}| == 2;
      SubsetCardinality({a, b}, ids);
    }
  }

  lemma SubsetCardinality(small: set<int>, big: set<int>)
    requires small <= big
    ensures |small| <= |big|
  {
    assert big == small + (big - small);
  }

  /**
   * An `Optional`-returning repository query: empty on no match, the row on
   * one match, `IncorrectResultSizeDataAccessException` on several.
   */
  function Unique(ids: set<int>): (r: Outcome<Option<int>>)
    ensures r == Returns(None) <==> ids == {}
    ensures r.Returns? && r.value.Some? ==> ids == {r.value.value}
    ensures r.Throws? ==> r.exception == IncorrectResultSize
    ensures r.Throws? <==> exists a, b :: a in ids && b in ids && a != b
  {
    if ids == {} then Returns(None)
    else
      NonEmptyHasElement(ids);
      var a :| a in ids;
      if |ids| == 1 then
        assert ids == {a} by {
          forall b | b in ids ensures b == a { SingletonHasOneElement(ids, a, b); }
        }
        Returns(Some(a))
      else
        OnlyMemberMeansSingleton(ids, a);
        Throws(IncorrectResultSize)
  }

  lemma NonEmptyHasElement(ids: set<int>)
    requires ids != {}
    ensures exists a :: a in ids
  {
    NoMemberMeansEmpty(ids);
  }

  lemma NoMemberMeansEmpty(ids: set<int>)
    ensures (forall a :: a !in ids) ==> ids == {}
  {
    if forall a :: a !in ids {
      assert ids == {};
    }
  }

  lemma OnlyMemberMeansSingleton(ids: set<int>, a: int)
    ensures a in ids && (forall b :: b in ids ==> b == a) ==> ids == {a}
  {
    if a in ids && forall b :: b in ids ==> b == a {
      assert ids == {a};
    }
  }

  /** `findByUsername`. */
  function FindByUsername(s: UserStore, username: string): (r: Outcome<Option<int>>)
    ensures r == Returns(None) <==> forall id :: id in s.rows ==> s.rows[id].username != username
    ensures forall id :: r == Returns(Some(id)) <==> SoleUsername(s, id, username)
    ensures r.Throws? <==>
      exists a, b :: a in s.rows && b in s.rows && a != b
        && s.rows[a].username == username && s.rows[b].username == username
  {
    var ids := IdsWhere(s.rows, (u: User) => u.username == username);
    assert forall id :: id in ids <==> id in s.rows && s.rows[id].username == username;
    Unique(ids)
  }

  /** `findByRefreshToken`; a row whose token column is null never matches. */
  function FindByRefreshToken(s: UserStore, token: Token): (r: Outcome<Option<int>>)
    ensures r == Returns(None) <==> forall id :: id in s.rows ==> s.rows[id].refreshToken != Some(token)
    ensures forall id :: r == Returns(Some(id)) <==> SoleHolder(s, id, token)
    ensures r.Throws? <==>
      exists a, b :: a in s.rows && b in s.rows && a != b
        && s.rows[a].refreshToken == Some(token) && s.rows[b].refreshToken == Some(token)
  {
    var ids := IdsWhere(s.rows, (u: User) => u.refreshToken == Some(token));
    assert forall id :: id in ids <==> id in s.rows && s.rows[id].refreshToken == Some(token);
    Unique(ids)
  }

  /**
   * `save` of a new entity: the store assigns the next id and the
   * `@PrePersist` hook stamps `createdAt`.
   */
  function Persist(s: UserStore, u: User, now: Millis): (s': UserStore)
    ensures s.nextId in s'.rows && s'.rows[s.nextId] == u.(id := s.nextId, createdAt := now)
    ensures forall id :: id in s.rows && id != s.nextId ==> id in s'.rows && s'.rows[id] == s.rows[id]
    ensures s'.rows.Keys == s.rows.Keys + {s.nextId}
    ensures Valid(s) ==> Valid(s') && |s'.rows| == |s.rows| + 1
  {
    var s' := UserStore(s.rows[s.nextId := u.(id := s.nextId, createdAt := now)], s.nextId + 1);
    assert Valid(s) ==> s.nextId !in s.rows;
    s'
  }

  /** `save` of an entity that was loaded from row `id`: a merge into that row. */
  function Merge(s: UserStore, id: int, u: User): (s': UserStore)
    requires id in s.rows
    ensures s'.rows.Keys == s.rows.Keys && s'.nextId == s.nextId
    ensures s'.rows[id] == u
    ensures forall j :: j in s.rows && j != id ==> s'.rows[j] == s.rows[j]
    ensures Valid(s) && u.id == s.rows[id].id ==> Valid(s')
  {
    UserStore(s.rows[id := u], s.nextId)
  }
}
